=== FILE: README.md ===
# Beta Enerji HR chat assistant — a Dafny model of its decision and rewrite logic

The repository is a small HR chat assistant. Its back end (`backend/server.js`)
answers a question from a list of frequently asked questions (FAQ) when the
question's embedding is close enough to an entry's embedding, and otherwise asks
a chat-completion service. Its front end (`frontend/app.js`) keeps the chat
history, intercepts sensitive questions before they are sent, and rewrites the
assistant's answer: a configured facility size replaces area figures, and links
whose URL is not whitelisted are removed.

This project models the deterministic part of both files and proves what it
promises. The network calls, the floating-point similarity and the user
interface become abstract inputs.

- `wrappers.dfy`: `Option` and `Result`.
- `js_text.dfy` (`JsText`): the JavaScript string semantics the code relies on.
  It covers the whitespace set of `trim()` and of `\s`, the truthiness of an
  optional string, `trim()` itself, case-insensitive literal search with the case
  fold left abstract, and `Array.prototype.join`.
- `global_replace.dfy` (`GlobalReplace`): `String.prototype.replace` with a global
  regex. It is a left-to-right scan over the text. The match at each position
  comes from a matcher function and is replaced by a replacement function.
- `faq_matcher.dfy` (`FaqMatcher`): the embedding cache and the best-match loop
  of `findFAQ`. The class `FaqIndex` holds the module-level `embeddingsCache`.
- `ask_endpoint.dfy` (`AskEndpoint`): the decisions of the `/api/ask` handler, the
  rendering of the configured facts (`factsText`), and the handler as a method
  over the cache.
- `guard.dfy` (`Guard`): `preGuard`.
- `links.dfy` (`Links`): `sanitizeLinks`. Each of its two regexes has an
  operational matcher. Each matcher is proved equal to a declarative reading of
  its regex at that position. This covers the backtracking of `[^\]]+` and the
  laziness of `\S+?`.
- `canonical_facts.dfy` (`CanonicalFacts`): `applyCanonicalFacts`. Its matcher is
  proved sound and complete for `\b\d{1,3}(\.\d{3})*(\s*m²)`. It also includes
  the `$`-pattern expansion of a replacement string.
- `chat.dfy` (`Chat`): `askBackend`, the assistant's text for a backend outcome,
  and the class `ChatSession` with the history, input and busy state of `send`.

Three details of the code that the model keeps as written:
- The front end prefixes error messages with "Hata: " (frontend/app.js:126).
- A whitelist pattern is tested against the whole URL, not only its host
  (frontend/app.js:40, 45 and 52).
- The answer for an empty completion is "Yanıt alınamadı." (backend/server.js:158).

## Model

| member | source | states |
|---|---|---|
| `JsText.Trim` | frontend/app.js:95 | `trim()` yields the infix left after removing a whitespace prefix and a whitespace suffix, with no whitespace at either end |
| `JsText.TrimEmptyIffAllSpace` | frontend/app.js:95-96 | the trimmed input is empty exactly when the input is all whitespace, which is when `send` does nothing |
| `JsText.TrimOfTrimmed` | frontend/app.js:95 | a property of `trim()`: trimming an already trimmed string changes nothing, so `trim()` is idempotent |
| `JsText.FindFrom` | frontend/app.js:27-29 | the leftmost occurrence, under the case fold, of a literal at or after a position; none at all when it reports none |
| `JsText.Contains` | frontend/app.js:29 | a regex test with the `i` flag of a literal alternative is true exactly when the literal occurs under the case fold |
| `JsText.LiteralOccurs` | frontend/app.js:27 | a literal occurrence is found whatever the case fold is |
| `JsText.JoinAppend` | backend/server.js:107 | `join` keeps order: one more element adds the separator and that element at the end |
| `GlobalReplace.ReplaceAtMatch` | frontend/app.js:43-53 | at a match, a global replace emits the replacement and resumes after the match |
| `GlobalReplace.ReplaceSkip` | frontend/app.js:62 | a stretch where no match starts is copied unchanged |
| `GlobalReplace.ReplaceNoMatch` | frontend/app.js:43-53 | a text in which the pattern never matches comes back unchanged |
| `GlobalReplace.ReplaceVerbatim` | frontend/app.js:45 | a replacement that gives back every match verbatim leaves the text unchanged |
| `FaqMatcher.EmbedAll` | backend/server.js:38-46 | when every embedding call succeeds, the cache has one entry per FAQ item, in order, each keeping `q` and `a` and adding the embedding of `q`; it fails exactly when some call throws, and then with the message of a failing call |
| `FaqMatcher.ForgetEmbedded` | backend/server.js:39-45 | dropping the vectors of a built cache gives back the FAQ list: building it drops, reorders and alters nothing |
| `FaqMatcher.CacheAfter` | backend/server.js:34-48 | a filled cache is kept; an empty one becomes exactly the embedded FAQ list `EmbedAll` builds (vectors included), and stays empty (to be filled again by the next request) exactly when the FAQ list is empty or an embedding call threw |
| `FaqMatcher.FirstMax` | backend/server.js:69-75 | a reference definition of the entry the strict `>` update ends on: a maximal score with every earlier score strictly smaller |
| `FaqMatcher.FirstMaxUnique` | backend/server.js:71-74 | there is only one such first maximum, so ties go to the earliest entry |
| `FaqMatcher.Selection` | backend/server.js:66-78 | an entry is chosen exactly when some score exceeds 0.8; the chosen one is the first maximum and exceeds 0.8 |
| `FaqMatcher.Lookup` | backend/server.js:69-78 | the same over the cache: an entry comes back exactly when some entry scores above 0.8, and it is the first best-scoring element of the cache |
| `FaqMatcher.BestMatch` | backend/server.js:66-75 | the loop's `bestScore` bounds every score and is never negative; `best` is null exactly when every score is at most 0, and otherwise it is the first maximum with `bestScore` its score |
| `FaqMatcher.PerfectMatchIsSelected` | backend/server.js:78 | when some entry scores 1 and none scores more, an entry scoring 1 is chosen |
| `FaqMatcher.FaqIndex.constructor` | backend/server.js:34 | the cache starts empty |
| `FaqMatcher.FaqIndex.GenerateEmbeddings` | backend/server.js:36-48 | the cache is replaced by the embedded FAQ list; when an embedding call throws, the cache is left as it was and the error is returned |
| `FaqMatcher.FindOutcome` | backend/server.js:57-79 | `findFAQ` rejects exactly when filling an empty cache or embedding the question throws, a failed fill before the question is embedded, and with the message of a failing call; otherwise it resolves to the entry `Lookup` chooses in the cache as it is after the fill |
| `FaqMatcher.FaqIndex.FindFAQ` | backend/server.js:57-79 | the cache becomes `CacheAfter` of the old one, and the result is `FindOutcome`: the chosen entry, or the error of a thrown embedding call |
| `AskEndpoint.SpaceUnderscores` | backend/server.js:106 | same length, every `_` becomes a space, every other character is kept, and no `_` is left |
| `AskEndpoint.FactLines` | backend/server.js:105-106 | one rendered line per fact, in entry order |
| `AskEndpoint.FactsTextAppend` | backend/server.js:105-107 | facts are rendered in entry order: one more fact appends "; " and its line |
| `AskEndpoint.FactsTextEmpty` | backend/server.js:105-107 | the facts text is empty exactly when there are no facts |
| `AskEndpoint.RenderValue` | backend/server.js:106 | a string fact shows as itself; an array shows as its elements joined by ", ": "" for none, the element for one, and each further element adds ", " and itself |
| `AskEndpoint.FactLine` | backend/server.js:106 | a fact line is the key with every `_` turned into a space, then ": ", then the rendered value |
| `AskEndpoint.FactsText` | backend/server.js:105-107 | no facts give ""; one fact gives its line; otherwise the text starts with the first fact's line |
| `AskEndpoint.Fallback` | backend/server.js:99-165 | no key gives 500 "OPENAI_API_KEY eksik"; with a key, a thrown completion gives 500 and its message and a read body always gives an answer; an answer has source "openai" and is non-empty and trimmed; it is the trimmed content when that is non-empty and otherwise "Yanıt alınamadı." |
| `AskEndpoint.Respond` | backend/server.js:83-165 | 400 exactly for an absent or empty text; a `findFAQ` that threw gives 500 and its message; an FAQ hit exactly gives the stored answer with source "sss"; otherwise the fallback decides; errors are 400 or 500 |
| `AskEndpoint.FaqDecidesWithoutKey` | backend/server.js:91-95 | once `findFAQ` has found an entry or thrown, the response is the same whatever the key and the completion are |
| `AskEndpoint.MissingKeyOnlyOnFallback` | backend/server.js:91-103 | for a non-empty question and no key, the result is the embedding error on a thrown `findFAQ`, the FAQ answer on a hit, and 500 "OPENAI_API_KEY eksik" only on a miss |
| `AskEndpoint.Ask` | backend/server.js:82-167 | an empty question gives 400 and leaves the cache alone; otherwise the cache becomes `CacheAfter` of the old one and the response is `Respond` on `findFAQ`'s outcome and the completion's outcome for `Request` (the facts text and the contact link, a missing one shown as "undefined" by `TemplateText`, with the question as received, untrimmed), so a thrown embedding call or completion gives 500 and its message |
| `Guard.ContactLink` | frontend/app.js:30 | the configured contact when it is set and non-empty, otherwise the default "https://betaenerji.com/iletisim"; never empty |
| `Guard.PreGuard` | frontend/app.js:26-34 | null exactly when no sensitive word occurs under the case fold; otherwise the fixed redirect message ending in the contact link |
| `Guard.SalaryQuestionRedirected` | frontend/app.js:26-31 | a question containing "maaş" is always redirected |
| `Links.SchemeAt` | frontend/app.js:44 | the length of `https?://` at a position: 8, 7 or 0, and 0 exactly when neither scheme stands there |
| `Links.MdLinkAt` | frontend/app.js:44 | every match it reports spans `[text](url)` with a non-empty text without `]`, a URL without `)` starting with a scheme and one more character, and the matched text is that slice |
| `Links.MdLinkAtComplete` | frontend/app.js:44 | whenever the markdown-link regex matches at a position, `MdLinkAt` reports exactly that match, so the match there is unique |
| `Links.IsOk` | frontend/app.js:39-40 | some whitelist pattern accepts the URL; an empty whitelist accepts none |
| `Links.MarkdownLinkRewrite` | frontend/app.js:43-46 | at a markdown link, pass 1 applies the callback `MdReplacement`: it keeps the link when its URL is whitelisted and otherwise writes its text, a space and "[link kaldırıldı]", then carries on after it |
| `Links.StripMarkdownLinksIdentity` | frontend/app.js:43-46 | pass 1 (`StripMarkdownLinks`) leaves a text unchanged when no markdown link matches in it, and when every URL is whitelisted |
| `Links.TrailStart` | frontend/app.js:50 | the start of the longest run of `[),.;!?]` characters that ends at a given position |
| `Links.BareUrlAt` | frontend/app.js:50 | the reported match lies in the text, and its three groups are the slices between its group boundaries |
| `Links.BareUrlGroups` | frontend/app.js:50-52 | URL, trail and separator together are the matched text |
| `Links.BareUrlAtSound` | frontend/app.js:50 | every match it reports has the shape of the bare-URL regex: scheme, non-space URL, a run of `),.;!?`, then whitespace or the end of the text |
| `Links.BareUrlAtShortest` | frontend/app.js:50 | its URL group is the shortest with which the pattern matches (the laziness of `\S+?`) |
| `Links.BareUrlShapeUnique` | frontend/app.js:50 | once the URL group is fixed, the trail and separator groups are determined |
| `Links.BareUrlAtComplete` | frontend/app.js:50 | the regex's match at a position, the one with the shortest URL group, is exactly what `BareUrlAt` reports |
| `Links.BareUrlRewrite` | frontend/app.js:49-53 | at a bare URL, pass 2 applies the callback `BareReplacement`: it keeps the URL when whitelisted and otherwise writes "[link kaldırıldı]"; the trailing `),.;!?` run and the whitespace after it stay |
| `Links.StripBareUrlsIdentity` | frontend/app.js:49-53 | pass 2 (`StripBareUrls`) leaves a text unchanged when no bare URL matches in it, and when every URL is whitelisted |
| `Links.SanitizeLinks` | frontend/app.js:37 | an absent or empty text gives "" |
| `Links.SanitizeWithoutScheme` | frontend/app.js:43-53 | a text without "http://" or "https://" passes through unchanged |
| `Links.NoMdLinkWithoutScheme` | frontend/app.js:44 | no markdown link matches where the text holds no scheme |
| `Links.SanitizeAllWhitelisted` | frontend/app.js:40-53 | when every URL is whitelisted, nothing changes |
| `Links.SanitizeExample` | frontend/app.js:36-56 | with an empty whitelist, "bkz. https://x.co/a), tamam" becomes "bkz. [link kaldırıldı]), tamam" |
| `CanonicalFacts.GroupsEnd` | frontend/app.js:62 | where the greedy `(\.\d{3})*` stops: no further group starts there |
| `CanonicalFacts.GroupsEndIsGroups` | frontend/app.js:62 | what the greedy groups span is matched by `(\.\d{3})*` |
| `CanonicalFacts.GroupsEndOf` | frontend/app.js:62 | groups followed by something other than `.` are exactly the greedy groups |
| `CanonicalFacts.SizeAt` | frontend/app.js:62 | a reported mention lies in the text; its match, the text before it and the text after it are the corresponding slices |
| `CanonicalFacts.SizeAtSound` | frontend/app.js:62 | every mention it reports is a match of `\b\d{1,3}(\.\d{3})*(\s*m²)` |
| `CanonicalFacts.SizeAtComplete` | frontend/app.js:62 | whenever that pattern matches at a position, `SizeAt` reports a match with the same end |
| `CanonicalFacts.Expand` | frontend/app.js:62 | the replacement string `size` is expanded as `String.prototype.replace` does: a size without `$` is inserted literally, a size of exactly `$&` gives the matched mention, and a size of exactly `$$` gives one `$` |
| `CanonicalFacts.ApplyCanonicalFacts` | frontend/app.js:59-65 | the text comes back unchanged unless a size is configured, "m²" occurs and one of tesis, fabrika or alan occurs |
| `CanonicalFacts.CanonicalStep` | frontend/app.js:62 | the rewrite copies the text up to the next mention, puts the size in its place and carries on after it |
| `CanonicalFacts.CanonicalWithoutMentions` | frontend/app.js:62 | a text without any mention is not changed |
| `CanonicalFacts.CanonicalWithMatchPattern` | frontend/app.js:59-65 | a configured size of "$&" puts every mention back, so the text is unchanged |
| `CanonicalFacts.CanonicalExample` | frontend/app.js:59-65 | "tesis alanı 12.000 m²" becomes "tesis alanı " followed by the configured size |
| `Chat.AskBackend` | frontend/app.js:68-78 | success exactly for an ok reply with a non-empty answer, which is returned; a thrown call fails with its message; a failed status fails with the body's error or, when that is absent or empty, "Bilinmeyen hata oluştu"; an ok reply without an answer fails with "Boş yanıt döndü" |
| `Chat.FaqAnswerReachesUser` | frontend/app.js:74-77 | a non-empty FAQ answer from the back end, sent as status 200 with `answer` set (`ToHttp`), reaches the front end unchanged |
| `Chat.ErrorResponseReachesUser` | frontend/app.js:75 | every error response of the back end, sent with a failing status and `error` set (`ToHttp`), becomes an error with its message, or "Bilinmeyen hata oluştu" when that is empty |
| `Chat.SentQuestionAccepted` | frontend/app.js:95-96 | the trimmed question that `send` passes on is never rejected with 400 |
| `Chat.AssistantText` | frontend/app.js:117-127 | a failure shows as "Hata: " and its message; an answer has the canonical facts applied first and then the links sanitized |
| `Chat.Exchange` | frontend/app.js:94-131 | one `send` adds nothing for an empty trimmed input, and otherwise the question followed by the redirect or the assistant's text |
| `Chat.ExchangeSent` | frontend/app.js:110-127 | a question that passes the guard adds the question and the assistant's text for the reply |
| `Chat.ExchangeBlocked` | frontend/app.js:99-107 | a sensitive question adds the question and the redirect, and nothing is sent |
| `Chat.AppendKeepsAlternation` | frontend/app.js:101-126 | appending the role whose turn it is keeps the history alternating |
| `Chat.ExchangeKeepsAlternation` | frontend/app.js:94-131 | a whole exchange keeps the history alternating between assistant and user, with the user next |
| `Chat.ChatSession.constructor` | frontend/app.js:83-87 | the history starts with the greeting, the input is empty and busy is off |
| `Chat.ChatSession.Edit` | frontend/app.js:172-174 | typing changes only the input |
| `Chat.ChatSession.Send` | frontend/app.js:95-114 | an empty trimmed input changes nothing; otherwise the input is cleared and the question appended, with the redirect and no request for a sensitive question, or busy set and the question sent |
| `Chat.ChatSession.Submit` | frontend/app.js:98-114 | the same for a non-empty question |
| `Chat.ChatSession.Deliver` | frontend/app.js:116-130 | the assistant's text for the reply is appended and busy cleared |
| `Chat.ChatSession.Answer` | frontend/app.js:116-130 | after a sent question, the reply completes the exchange: the history is the one before `send` plus `Exchange`, and busy is cleared |
| `Chat.ChatSession.Converse` | frontend/app.js:94-131 | a whole `send` appends exactly `Exchange` of the trimmed input and ends not busy, keeping the history alternating |

## Left out

- The embedding and chat-completion calls, `fetch` and JSON parsing are abstract inputs: `embed` (a vector or the message of a thrown error), the completion outcome `Upstream`, and the front end's `HttpReply`.
- The embedding client is built from the same `OPENAI_API_KEY` as the completion call (backend/server.js:21). The model does not tie `embed` to the key: whether an embedding call throws is an independent input.
- `cosineSim` is floating-point arithmetic with `Math.sqrt`. It is the abstract score function `sim` over `real`.
- The concurrent `Promise.all` that fills the cache is one assignment. The race between two first requests that both fill it is not modelled.
- `FaqMatcher.EmbedAll`: when several embedding calls throw, which rejection `Promise.all` reports depends on timing. The model reports the first failing entry in list order; its contract promises only that the message is that of a failing call.
- The fixed prose of the system prompt is left out. The request carries only the facts text, the contact link and the question.
- Loading the configuration and FAQ files, Express routing, CORS, logging and the server start-up are left out.
- React rendering, `ready`, the auto-scroll and the key handler are left out. The disabled input and button while busy become the `!busy` preconditions of `Edit`, `Send` and `Converse`.
- `send` awaits the back end between its two halves. The model splits it into `Send` and `Deliver`, and `Converse` runs both. Interleavings of other events during the await are not modelled.
- Unicode case folding under the `i` flag is an abstract `fold`. Strings are sequences of characters; UTF-16 surrogate pairs are not modelled.
- Whitelist patterns are compiled from configuration at run time. Whether a pattern accepts a URL is an abstract test. An invalid pattern, which would throw, is not modelled.
- Non-string values (a numeric `text`, a non-string fact or error field) are not modelled. Facts are strings or arrays of strings, kept in entry order.
- The `source` field of an answer ("sss" or "openai") is the `Source` value of the response. The front end does not read it, and its JSON spelling is not modelled.
- `Links.SanitizeLinks`: the `typeof text !== "string"` test is only the absent case (`None`), because values are strings or absent.
- `CanonicalFacts.SizeAtComplete`: it shows the match ends where the pattern's match ends, not the captured groups. The groups are fixed by the end, since `SizeAt` fills them from the slices.

=== FILE: ask_endpoint.dfy ===
/**
 * The `/api/ask` handler of backend/server.js: reject an empty question, answer
 * from the FAQ when it matches, otherwise fall back to the chat-completion
 * service, whose system prompt carries the configured facts.
 *
 * The completion call is abstract: `complete` maps the request to its outcome,
 * either a thrown error or a parsed body whose first choice may carry content.
 * Whatever is thrown inside the handler, by the embedding calls of `findFAQ` or
 * by the completion call, is answered with 500 and the error's message.
 */
module AskEndpoint {
  import opened Wrappers
  import opened JsText
  import FaqMatcher

  /** The `source` field of a successful reply: "sss" or "openai". */
  datatype Source = Sss | OpenAi

  /** `{ answer, source }` with status 200, or `{ error }` with the given status. */
  datatype Response = Answer(answer: string, source: Source) | Error(status: nat, error: string)

  /**
   * What the completion call gave: it threw (network failure), or a body was read;
   * `content` is `choices[0].message.content` when present (an unparsable body
   * counts as `{}` and so has none).
   */
  datatype Upstream = Threw(message: string) | Replied(content: Option<string>)

  /** A configured fact: a string, or an array of strings. */
  datatype FactValue = Scalar(text: string) | List(items: seq<string>)
  datatype Fact = Fact(key: string, value: FactValue)

  /** The parts of the backend configuration the handler reads: `facts` in entry order and `links.contact`. */
  datatype BackendConfig = BackendConfig(facts: seq<Fact>, contact: Option<string>)

  /**
   * The chat-completion request: the fixed system prompt with `facts` and
   * `contact` filled in, and the user's question.
   */
  datatype ChatRequest = ChatRequest(facts: string, contact: string, user: string)

  const EmptyQuestion: string := "Soru metni boş olamaz."
  const MissingKey: string := "OPENAI_API_KEY eksik"
  const NoAnswer: string := "Yanıt alınamadı."

  /** `k.replace(/_/g, " ")`. */
  function SpaceUnderscores(k: string): (r: string)
    ensures |r| == |k|
    ensures forall i :: 0 <= i < |k| ==> r[i] == (if k[i] == '_' then ' ' else k[i])
    ensures '_' !in r
  {
    if k == [] then [] else [if k[0] == '_' then ' ' else k[0]] + SpaceUnderscores(k[1..])
  }

  /** A value as a template literal shows it: arrays joined by ", ". */
  function RenderValue(v: FactValue): (r: string)
    ensures v.Scalar? ==> r == v.text
    ensures v.List? && v.items == [] ==> r == ""
    ensures v.List? && |v.items| == 1 ==> r == v.items[0]
    ensures v.List? && |v.items| > 1 ==>
      r == Join(v.items[..|v.items| - 1], ", ") + ", " + v.items[|v.items| - 1]
  {
    match v
    case Scalar(t) => t
    case List(items) =>
      assert |items| > 1 ==> Join(items, ", ") == Join(items[..|items| - 1], ", ") + ", " + items[|items| - 1] by {
        if |items| > 1 {
          JoinAppend(items[..|items| - 1], items[|items| - 1], ", ");
          assert items[..|items| - 1] + [items[|items| - 1]] == items;
        }
      }
      Join(items, ", ")
  }

  /** One fact as `key with spaces: value`. */
  function FactLine(f: Fact): (r: string)
    ensures |r| == |f.key| + 2 + |RenderValue(f.value)|
    ensures forall i :: 0 <= i < |f.key| ==> r[i] == (if f.key[i] == '_' then ' ' else f.key[i])
    ensures r[|f.key|..|f.key| + 2] == ": "
    ensures r[|f.key| + 2..] == RenderValue(f.value)
  {
    SpaceUnderscores(f.key) + ": " + RenderValue(f.value)
  }

  function FactLines(facts: seq<Fact>): (lines: seq<string>)
    ensures |lines| == |facts|
    ensures forall i :: 0 <= i < |facts| ==> lines[i] == FactLine(facts[i])
  {
    if facts == [] then [] else [FactLine(facts[0])] + FactLines(facts[1..])
  }

  /** `factsText`: the fact lines joined by "; ". */
  function FactsText(facts: seq<Fact>): (r: string)
    ensures facts == [] ==> r == ""
    ensures |facts| == 1 ==> r == FactLine(facts[0])
    ensures facts != [] ==> FactLine(facts[0]) <= r
  {
    var lines := FactLines(facts);
    assert facts != [] ==> lines[0] == FactLine(facts[0]);
    Join(lines, "; ")
  }

  /** Facts are rendered in entry order: adding a fact appends "; " and its line. */
  lemma {:induction false} FactsTextAppend(facts: seq<Fact>, f: Fact)
    requires facts != []
    ensures FactsText(facts + [f]) == FactsText(facts) + "; " + FactLine(f)
  {
    assert FactLines(facts + [f]) == FactLines(facts) + [FactLine(f)];
    JoinAppend(FactLines(facts), FactLine(f), "; ");
  }

  /** The text is empty exactly when there are no facts: each line holds at least ": ". */
  lemma {:induction false} FactsTextEmpty(facts: seq<Fact>)
    ensures FactsText(facts) == "" <==> facts == []
  {
    if facts != [] {
      var lines := FactLines(facts);
      assert lines[0] == FactLine(facts[0]);
      assert |FactLine(facts[0])| >= 2;
      if |facts| > 1 {
        assert FactsText(facts) == lines[0] + "; " + Join(lines[1..], "; ");
      }
    }
  }

  /** `${v}` of a template literal: a missing value shows as "undefined". */
  function TemplateText(v: Option<string>): string
  {
    match v
    case Some(s) => s
    case None => "undefined"
  }

  /**
   * The completion request built for a question: the system prompt carries the
   * facts text and the contact link, and the user message is the question as
   * received, untrimmed.
   */
  function Request(config: BackendConfig, text: string): ChatRequest
  {
    ChatRequest(FactsText(config.facts), TemplateText(config.contact), text)
  }

  /** The fallback path: the API key is checked, then the completion's content is trimmed. */
  function Fallback(apiKey: Option<string>, upstream: Upstream): (r: Response)
    ensures !Truthy(apiKey) ==> r == Error(500, MissingKey)
    ensures r.Error? ==> r.status == 500
    ensures Truthy(apiKey) && upstream.Threw? ==> r == Error(500, upstream.message)
    ensures Truthy(apiKey) && upstream.Replied? ==> r.Answer?
    ensures r.Answer? ==> r.source == OpenAi && r.answer != "" && IsTrimmed(r.answer)
    ensures r.Answer? && r.answer != NoAnswer ==>
      upstream.Replied? && upstream.content.Some? && r.answer == Trim(upstream.content.value)
    ensures upstream.Replied? && upstream.content.Some? && Truthy(apiKey) && Trim(upstream.content.value) != "" ==>
      r.answer == Trim(upstream.content.value)
  {
    if !Truthy(apiKey) then Error(500, MissingKey)
    else match upstream
      case Threw(message) => Error(500, message)
      case Replied(content) =>
        var answer := if content.Some? then Trim(content.value) else "";
        if answer == "" then Answer(NoAnswer, OpenAi) else Answer(answer, OpenAi)
  }

  /**
   * The handler's decision, given what `findFAQ` resolved to or rejected with for
   * the question and what the completion call gave.
   */
  function Respond(text: Option<string>, faq: Result<Option<FaqMatcher.CachedFaq>, string>, apiKey: Option<string>,
                   upstream: Upstream): (r: Response)
    ensures r.Error? ==> r.status == 400 || r.status == 500
    ensures (r.Error? && r.status == 400) <==> !Truthy(text)
    ensures !Truthy(text) ==> r.error == EmptyQuestion
    ensures Truthy(text) && faq.Failure? ==> r == Error(500, faq.error)
    ensures (r.Answer? && r.source == Sss) <==> Truthy(text) && faq.Success? && faq.value.Some?
    ensures r.Answer? && r.source == Sss ==> r.answer == faq.value.value.a
    ensures Truthy(text) && faq == Success(None) ==> r == Fallback(apiKey, upstream)
  {
    if !Truthy(text) then Error(400, EmptyQuestion)
    else match faq
      case Failure(message) => Error(500, message)
      case Success(Some(item)) => Answer(item.a, Sss)
      case Success(None) => Fallback(apiKey, upstream)
  }

  /** Once `findFAQ` has found an entry or thrown, neither the API key nor the completion service is consulted. */
  lemma FaqDecidesWithoutKey(text: Option<string>, faq: Result<Option<FaqMatcher.CachedFaq>, string>,
                             key1: Option<string>, up1: Upstream, key2: Option<string>, up2: Upstream)
    requires faq != Success(None)
    ensures Respond(text, faq, key1, up1) == Respond(text, faq, key2, up2)
  {
  }

  /** A missing API key gives "OPENAI_API_KEY eksik" only on the fallback path. */
  lemma MissingKeyOnlyOnFallback(text: Option<string>, faq: Result<Option<FaqMatcher.CachedFaq>, string>, upstream: Upstream)
    requires Truthy(text)
    ensures Respond(text, faq, None, upstream) ==
      match faq
      case Failure(message) => Error(500, message)
      case Success(Some(item)) => Answer(item.a, Sss)
      case Success(None) => Error(500, MissingKey)
  {
  }

  /**
   * The handler with its effects: an empty question is rejected before the FAQ
   * cache is touched; otherwise `findFAQ` runs (filling the cache when it is
   * empty) and the decision follows. A `findFAQ` that throws is caught and
   * answered with 500 and its message.
   */
  method Ask(index: FaqMatcher.FaqIndex, config: BackendConfig, text: Option<string>, apiKey: Option<string>,
             embed: string -> FaqMatcher.Embedding, sim: (FaqMatcher.Vector, FaqMatcher.Vector) -> real,
             complete: ChatRequest -> Upstream)
    returns (resp: Response)
    modifies index
    ensures !Truthy(text) ==> resp == Error(400, EmptyQuestion) && index.embeddingsCache == old(index.embeddingsCache)
    ensures Truthy(text) ==>
      && index.embeddingsCache == FaqMatcher.CacheAfter(old(index.embeddingsCache), index.faqs, embed)
      && resp == Respond(text, FaqMatcher.FindOutcome(old(index.embeddingsCache), index.faqs, text.value, embed, sim),
                         apiKey, complete(Request(config, text.value)))
  {
    if !Truthy(text) {
      return Error(400, EmptyQuestion);
    }
    var faq := index.FindFAQ(text.value, embed, sim);
    if faq.Failure? {
      return Error(500, faq.error);
    }
    if faq.value.Some? {
      return Answer(faq.value.value.a, Sss);
    }
    if !Truthy(apiKey) {
      return Error(500, MissingKey);
    }
    var upstream := complete(Request(config, text.value));
    resp := Fallback(apiKey, upstream);
  }
}

=== FILE: canonical_facts.dfy ===
/**
 * `applyCanonicalFacts` of frontend/app.js: when a facility size is configured
 * and the text talks about an area ("m²") of a facility ("tesis", "fabrika",
 * "alan"), every mention `\b\d{1,3}(\.\d{3})*(\s*m²)` is replaced by the
 * configured size.
 *
 * The guard's two tests use the `i` flag (case fold abstract); the replacement
 * pattern has no flag but `g`. The configured size is a replacement *string*, so
 * its `$` patterns are expanded as `String.prototype.replace` does.
 */
module CanonicalFacts {
  import opened Wrappers
  import opened JsText
  import GlobalReplace

  const AreaUnit: string := "m²"
  const FacilityWords: seq<string> := ["tesis", "fabrika", "alan"]

  /**
   * One mention: where it ends, the matched text, the text before and after it,
   * the last `(\.\d{3})` group (absent when it matched no time) and the `(\s*m²)` group.
   */
  datatype SizeMention = SizeMention(end: nat, matched: string, before: string, after: string,
                                     lastGroup: Option<string>, unit: string)

  predicate NotDigit(c: char) { !IsDigit(c) }
  predicate NotSpace(c: char) { !IsSpace(c) }

  /** A `\.\d{3}` group at p. */
  predicate GroupAt(text: string, p: nat) {
    p + 4 <= |text| && text[p] == '.' && IsDigit(text[p + 1]) && IsDigit(text[p + 2]) && IsDigit(text[p + 3])
  }

  /** Where the greedy `(\.\d{3})*` that starts at p stops. */
  function GroupsEnd(text: string, p: nat): (g: nat)
    requires p <= |text|
    ensures p <= g <= |text| && !GroupAt(text, g)
    decreases |text| - p
  {
    if GroupAt(text, p) then GroupsEnd(text, p + 4) else p
  }

  /** The strings `(\.\d{3})*` matches. */
  predicate IsGroups(s: string)
    decreases |s|
  {
    s == [] || (|s| >= 4 && s[0] == '.' && IsDigit(s[1]) && IsDigit(s[2]) && IsDigit(s[3]) && IsGroups(s[4..]))
  }

  /**
   * The mention starting at i. Only the greedy extent of `\d{1,3}(\.\d{3})*` and
   * `\s*` can be followed by what comes next, so backtracking never finds
   * another match (`SizeAtComplete`).
   */
  function SizeAt(text: string, i: nat): (r: Option<SizeMention>)
    ensures r.Some? ==> i < r.value.end <= |text|
    ensures r.Some? ==> r.value.matched == text[i..r.value.end] && r.value.before == text[..i] && r.value.after == text[r.value.end..]
  {
    if i < |text| && IsDigit(text[i]) && (i == 0 || !IsWordChar(text[i - 1])) then
      var run := FirstWhere(text, NotDigit, i);
      var d := if run < i + 3 then run else i + 3;
      var g := GroupsEnd(text, d);
      var s := FirstWhere(text, NotSpace, g);
      if s + 2 <= |text| && text[s..s + 2] == AreaUnit then
        Some(SizeMention(s + 2, text[i..s + 2], text[..i], text[s + 2..],
                         if g > d then Some(text[g - 4..g]) else None, text[g..s + 2]))
      else None
    else None
  }

  /**
   * `\b\d{1,3}(\.\d{3})*(\s*m²)` matches at i with its digit block ending at d,
   * its groups at g and its spaces at s; the match ends at s + 2.
   */
  ghost predicate SizeShape(text: string, i: nat, d: nat, g: nat, s: nat) {
    && i < d <= i + 3 && d <= g <= s && s + 2 <= |text|
    && (i == 0 || !IsWordChar(text[i - 1]))
    && (forall k :: i <= k < d ==> IsDigit(text[k]))
    && IsGroups(text[d..g])
    && (forall k :: g <= k < s ==> IsSpace(text[k]))
    && text[s..s + 2] == AreaUnit
  }

  /** The greedy groups form a `(\.\d{3})*`. */
  lemma {:induction false} GroupsEndIsGroups(text: string, p: nat)
    requires p <= |text|
    ensures IsGroups(text[p..GroupsEnd(text, p)])
    decreases |text| - p
  {
    if GroupAt(text, p) {
      GroupsEndIsGroups(text, p + 4);
      var g := GroupsEnd(text, p);
      assert text[p..g][4..] == text[p + 4..g];
    }
  }

  /** Groups followed by something other than `.` are the greedy groups. */
  lemma {:induction false} GroupsEndOf(text: string, p: nat, g: nat)
    requires p <= g < |text| && IsGroups(text[p..g]) && text[g] != '.'
    ensures GroupsEnd(text, p) == g
    decreases g - p
  {
    if p < g {
      var u := text[p..g];
      assert u[0] == text[p] && u[1] == text[p + 1] && u[2] == text[p + 2] && u[3] == text[p + 3];
      assert GroupAt(text, p);
      assert u[4..] == text[p + 4..g];
      GroupsEndOf(text, p + 4, g);
    }
  }

  /** Every mention `SizeAt` reports is a match of the pattern. */
  lemma SizeAtSound(text: string, i: nat)
    requires SizeAt(text, i).Some?
    ensures exists d: nat, g: nat, s: nat :: SizeShape(text, i, d, g, s) && SizeAt(text, i).value.end == s + 2
  {
    var run := FirstWhere(text, NotDigit, i);
    var d := if run < i + 3 then run else i + 3;
    var g := GroupsEnd(text, d);
    var s := FirstWhere(text, NotSpace, g);
    GroupsEndIsGroups(text, d);
    assert SizeShape(text, i, d, g, s);
  }

  /** Whenever the pattern matches at i, `SizeAt` reports that match. */
  lemma SizeAtComplete(text: string, i: nat, d: nat, g: nat, s: nat)
    requires SizeShape(text, i, d, g, s)
    ensures SizeAt(text, i).Some? && SizeAt(text, i).value.end == s + 2
  {
    assert text[s] == text[s..s + 2][0] == 'm';
    assert text[s + 1] == text[s..s + 2][1];
    // the character after the digit block is `.`, whitespace or `m`, never a digit
    assert NotDigit(text[d]) by {
      if d < g {
        assert text[d] == text[d..g][0];
      }
    }
    FirstWhereAt(text, NotDigit, i, d);
    assert text[g] != '.';
    GroupsEndOf(text, d, g);
    FirstWhereAt(text, NotSpace, g, s);
  }

  function SizeEnd(m: SizeMention): nat { m.end }

  /** The text a capture group reference `$1` or `$2` stands for; an unmatched group is "". */
  function Capture(m: SizeMention, n: nat): string
  {
    if n == 1 then (if m.lastGroup.Some? then m.lastGroup.value else "") else m.unit
  }

  /**
   * `GetSubstitution`: `$$`, `$&`, `` $` ``, `$'`, and the group references `$1`,
   * `$2`, `$01`, `$02` are expanded; every other `$` stands for itself.
   */
  function Expand(template: string, m: SizeMention): (r: string)
    ensures '$' !in template ==> r == template
    ensures template == "$&" ==> r == m.matched
    ensures template == "$$" ==> r == "$"
    decreases |template|
  {
    if template == [] then []
    else if template[0] == '$' && |template| >= 2 then
      var c := template[1];
      if c == '$' then "$" + Expand(template[2..], m)
      else if c == '&' then m.matched + Expand(template[2..], m)
      else if c == '`' then m.before + Expand(template[2..], m)
      else if c == '\'' then m.after + Expand(template[2..], m)
      else if c == '0' && |template| >= 3 && (template[2] == '1' || template[2] == '2') then
        Capture(m, if template[2] == '1' then 1 else 2) + Expand(template[3..], m)
      else if c == '1' || c == '2' then Capture(m, if c == '1' then 1 else 2) + Expand(template[2..], m)
      else "$" + Expand(template[1..], m)
    else [template[0]] + Expand(template[1..], m)
  }

  lemma SizeAdvances(text: string)
    ensures GlobalReplace.Advances(text, SizeAt, SizeEnd)
  {
  }

  /** The area test `/m²/i`. */
  predicate MentionsArea(text: string, fold: char -> char) {
    Contains(text, AreaUnit, fold)
  }

  /** The facility test `/tesis|fabrika|alan/i`. */
  predicate MentionsFacility(text: string, fold: char -> char) {
    exists w | w in FacilityWords :: Contains(text, w, fold)
  }

  /**
   * `applyCanonicalFacts`: the text comes back unchanged unless a size is
   * configured and both tests succeed.
   */
  function ApplyCanonicalFacts(text: string, size: Option<string>, fold: char -> char): (r: string)
    ensures !(Truthy(size) && MentionsArea(text, fold) && MentionsFacility(text, fold)) ==> r == text
  {
    if Truthy(size) && MentionsArea(text, fold) && MentionsFacility(text, fold) then
      SizeAdvances(text);
      GlobalReplace.ReplaceFrom(text, 0, SizeAt, SizeEnd, Expand, size.value)
    else text
  }

  /**
   * The rewrite copies the text up to the next mention (every match of the
   * pattern is one, `SizeAtComplete`), puts the size in place of that mention,
   * and carries on after it.
   */
  lemma CanonicalStep(text: string, size: string, i: nat, j: nat, e: nat)
    requires GlobalReplace.Advances(text, SizeAt, SizeEnd)
    requires i <= j < |text| && SizeAt(text, j).Some? && SizeAt(text, j).value.end == e && '$' !in size
    requires forall k :: i <= k < j ==> SizeAt(text, k).None?
    ensures e <= |text|
    ensures GlobalReplace.ReplaceFrom(text, i, SizeAt, SizeEnd, Expand, size)
            == text[i..j] + size + GlobalReplace.ReplaceFrom(text, e, SizeAt, SizeEnd, Expand, size)
  {
    GlobalReplace.ReplaceSkip(text, i, j, SizeAt, SizeEnd, Expand, size);
    assert Expand(size, SizeAt(text, j).value) == size;
    GlobalReplace.ReplaceAtMatch(text, j, SizeAt, SizeEnd, Expand, size);
  }

  /** The configured size replaces the figure the assistant gave for a facility's area. */
  lemma CanonicalExample(text: string, size: string, fold: char -> char)
    requires text == "tesis alanı 12.000 m²" && size != "" && '$' !in size
    ensures ApplyCanonicalFacts(text, Some(size), fold) == text[..12] + size
  {
    ExampleGuard(text, fold);
    SizeAdvances(text);
    ExampleShape(text);
    SizeAtComplete(text, 12, 14, 18, 19);
    CanonicalStep(text, size, 0, 12, 21);
    assert GlobalReplace.ReplaceFrom(text, 21, SizeAt, SizeEnd, Expand, size) == [];
  }

  lemma ExampleShape(text: string)
    requires text == "tesis alanı 12.000 m²"
    ensures forall k :: 0 <= k < 12 ==> SizeAt(text, k).None?
    ensures SizeShape(text, 12, 14, 18, 19) && |text| == 21
  {
    forall k | 0 <= k < 12 ensures !IsDigit(text[k]) {
    }
    assert IsGroups(text[14..18]) by {
      assert text[14..18][4..] == [];
    }
  }

  lemma ExampleGuard(text: string, fold: char -> char)
    requires text == "tesis alanı 12.000 m²"
    ensures MentionsArea(text, fold) && MentionsFacility(text, fold)
  {
    LiteralOccurs(text, AreaUnit, 19, fold);
    LiteralOccurs(text, "tesis", 0, fold);
    assert "tesis" in FacilityWords;
  }

  /** Where no mention occurs, nothing is rewritten. */
  lemma CanonicalWithoutMentions(text: string, size: Option<string>, fold: char -> char)
    requires forall j :: 0 <= j < |text| ==> SizeAt(text, j).None?
    ensures ApplyCanonicalFacts(text, size, fold) == text
  {
    if Truthy(size) && MentionsArea(text, fold) && MentionsFacility(text, fold) {
      SizeAdvances(text);
      GlobalReplace.ReplaceNoMatch(text, SizeAt, SizeEnd, Expand, size.value);
    }
  }

  /** A configured size of "$&" puts every mention back as it was: the text is unchanged. */
  lemma CanonicalWithMatchPattern(text: string, fold: char -> char)
    ensures ApplyCanonicalFacts(text, Some("$&"), fold) == text
  {
    if MentionsArea(text, fold) && MentionsFacility(text, fold) {
      SizeAdvances(text);
      GlobalReplace.ReplaceVerbatim(text, 0, SizeAt, SizeEnd, Expand, "$&");
    }
  }
}

=== FILE: chat.dfy ===
/**
 * The chat front end of frontend/app.js: `askBackend`, which turns the
 * backend's HTTP reply into an answer or an error, and the history updates of
 * `send`. The history starts with the assistant's greeting and only ever grows
 * by appending; the React state setters become field assignments.
 *
 * `send` awaits the backend between its two halves, and the input box and send
 * button are disabled while `busy`, so the model has `Send` (up to the request)
 * and `Deliver` (after the reply) as two methods, and `Converse` running both.
 */
module Chat {
  import opened Wrappers
  import opened JsText
  import Guard
  import Links
  import CanonicalFacts
  import AskEndpoint
  import FaqMatcher

  datatype Role = User | Assistant
  datatype Message = Message(role: Role, content: string)

  const Greeting: string := "Merhaba! İK asistanıyım. Nasıl yardımcı olabilirim?"
  const UnknownError: string := "Bilinmeyen hata oluştu"
  const EmptyReply: string := "Boş yanıt döndü"
  const ErrorPrefix: string := "Hata: "

  /**
   * What `fetch` and `res.json()` produced: the HTTP status test `res.ok` with
   * the body's `error` and `answer` fields, or an exception with its message
   * (network failure, malformed JSON).
   */
  datatype HttpReply = Reply(ok: bool, error: Option<string>, answer: Option<string>) | Thrown(message: string)

  /** `askBackend`: the answer, or the message of the error it throws. */
  function AskBackend(reply: HttpReply): (r: Result<string, string>)
    ensures r.Success? <==> reply.Reply? && reply.ok && Truthy(reply.answer)
    ensures r.Success? ==> r.value == reply.answer.value && r.value != ""
    ensures reply.Thrown? ==> r == Failure(reply.message)
    ensures reply.Reply? && !reply.ok ==> r == Failure(if Truthy(reply.error) then reply.error.value else UnknownError)
    ensures reply.Reply? && reply.ok && !Truthy(reply.answer) ==> r == Failure(EmptyReply)
  {
    match reply
    case Thrown(message) => Failure(message)
    case Reply(ok, error, answer) =>
      if !ok then Failure(if Truthy(error) then error.value else UnknownError)
      else if !Truthy(answer) then Failure(EmptyReply)
      else Success(answer.value)
  }

  /**
   * What the front end reads of the handler's reply: `res.ok` (status 200 for an
   * answer, 400 or 500 for an error) and the body's `error` and `answer` fields.
   * The body's `source` field is not read.
   */
  function ToHttp(resp: AskEndpoint.Response): HttpReply
  {
    match resp
    case Answer(answer, _) => Reply(true, None, Some(answer))
    case Error(_, error) => Reply(false, Some(error), None)
  }

  /** The front end's part of the configuration. */
  datatype FrontConfig = FrontConfig(contact: Option<string>, whitelist: seq<string>, facilitySize: Option<string>)

  /** The regular-expression machinery the model keeps abstract: the `i` flag's case fold and the whitelist test. */
  datatype Engine = Engine(fold: char -> char, test: (string, string) -> bool)

  /** What the assistant says once the backend call has settled. */
  function AssistantText(cfg: FrontConfig, eng: Engine, outcome: Result<string, string>): (r: string)
    ensures outcome.Failure? ==> r == ErrorPrefix + outcome.error
    ensures outcome.Success? ==>
      r == Links.SanitizeLinks(Some(CanonicalFacts.ApplyCanonicalFacts(outcome.value, cfg.facilitySize, eng.fold)),
                               Links.Whitelist(cfg.whitelist, eng.test))
  {
    match outcome
    case Failure(message) => ErrorPrefix + message
    case Success(answer) =>
      var fixed := CanonicalFacts.ApplyCanonicalFacts(answer, cfg.facilitySize, eng.fold);
      Links.SanitizeLinks(Some(fixed), Links.Whitelist(cfg.whitelist, eng.test))
  }

  /**
   * The messages one `send` of the trimmed input `text` adds: nothing for an
   * empty text, the question and the redirect for a sensitive one, and otherwise
   * the question and what the assistant makes of the backend's reply.
   */
  function Exchange(cfg: FrontConfig, eng: Engine, text: string, reply: HttpReply): (added: seq<Message>)
    ensures text == "" <==> added == []
    ensures added != [] ==> |added| == 2 && added[0] == Message(User, text) && added[1].role == Assistant
    ensures added != [] && Guard.PreGuard(text, cfg.contact, eng.fold).Some? ==>
      added[1].content == Guard.PreGuard(text, cfg.contact, eng.fold).value
    ensures added != [] && Guard.PreGuard(text, cfg.contact, eng.fold).None? ==>
      added[1].content == AssistantText(cfg, eng, AskBackend(reply))
  {
    if text == "" then []
    else
      var blocked := Guard.PreGuard(text, cfg.contact, eng.fold);
      if blocked.Some? then [Message(User, text), Message(Assistant, blocked.value)]
      else [Message(User, text), Message(Assistant, AssistantText(cfg, eng, AskBackend(reply)))]
  }

  /** A question that passes the guard adds the question and the assistant's text for the reply. */
  lemma ExchangeSent(cfg: FrontConfig, eng: Engine, text: string, reply: HttpReply)
    requires text != "" && Guard.PreGuard(text, cfg.contact, eng.fold).None?
    ensures Exchange(cfg, eng, text, reply)
            == [Message(User, text), Message(Assistant, AssistantText(cfg, eng, AskBackend(reply)))]
  {
  }

  /** A sensitive question adds the question and the redirect. */
  lemma ExchangeBlocked(cfg: FrontConfig, eng: Engine, text: string, reply: HttpReply)
    requires text != "" && Guard.PreGuard(text, cfg.contact, eng.fold).Some?
    ensures Exchange(cfg, eng, text, reply)
            == [Message(User, text), Message(Assistant, Guard.PreGuard(text, cfg.contact, eng.fold).value)]
  {
  }

  lemma AppendTwo(ms: seq<Message>, a: Message, b: Message)
    ensures ms + [a] + [b] == ms + [a, b]
  {
  }

  /** Whose turn the message at position i of the history is. */
  function RoleAt(i: nat): Role {
    if i % 2 == 0 then Assistant else User
  }

  /** Turns alternate. */
  lemma NextTurn(n: nat)
    ensures RoleAt(n + 1) == (if RoleAt(n) == User then Assistant else User)
  {
  }

  /** The history alternates, starting with the assistant's greeting. */
  predicate Alternating(ms: seq<Message>) {
    |ms| > 0 && forall i :: 0 <= i < |ms| ==> ms[i].role == RoleAt(i)
  }

  /** Appending the role whose turn it is keeps the history alternating. */
  lemma AppendKeepsAlternation(ms: seq<Message>, m: Message)
    requires Alternating(ms) && m.role == RoleAt(|ms|)
    ensures Alternating(ms + [m])
  {
    var all := ms + [m];
    forall i | 0 <= i < |all| ensures all[i].role == RoleAt(i) {
      if i < |ms| {
        assert all[i] == ms[i];
      }
    }
  }

  /** A question followed by its answer keeps the history alternating. */
  lemma AppendPairKeepsAlternation(ms: seq<Message>, question: Message, answer: Message)
    requires Alternating(ms) && RoleAt(|ms|) == User
    requires question.role == User && answer.role == Assistant
    ensures Alternating(ms + [question, answer]) && RoleAt(|ms| + 2) == User
  {
    AppendKeepsAlternation(ms, question);
    NextTurn(|ms|);
    AppendKeepsAlternation(ms + [question], answer);
    NextTurn(|ms| + 1);
    assert ms + [question, answer] == ms + [question] + [answer];
  }

  /** A whole exchange keeps the history alternating. */
  lemma ExchangeKeepsAlternation(ms: seq<Message>, cfg: FrontConfig, eng: Engine, text: string, reply: HttpReply)
    requires Alternating(ms) && RoleAt(|ms|) == User
    ensures Alternating(ms + Exchange(cfg, eng, text, reply))
    ensures RoleAt(|ms + Exchange(cfg, eng, text, reply)|) == User
  {
    var added := Exchange(cfg, eng, text, reply);
    if added != [] {
      AppendPairKeepsAlternation(ms, added[0], added[1]);
      assert added == [added[0], added[1]];
    }
  }

  /** The question `send` passes to the backend is never the empty text that the handler rejects with 400. */
  lemma SentQuestionAccepted(input: string, faq: Result<Option<FaqMatcher.CachedFaq>, string>, apiKey: Option<string>,
                             upstream: AskEndpoint.Upstream)
    requires Trim(input) != ""
    ensures AskEndpoint.Respond(Some(Trim(input)), faq, apiKey, upstream).Error? ==>
              AskEndpoint.Respond(Some(Trim(input)), faq, apiKey, upstream).status == 500
  {
  }

  /** A matching FAQ entry with a non-empty answer reaches the user as that answer. */
  lemma FaqAnswerReachesUser(text: string, faq: FaqMatcher.CachedFaq, apiKey: Option<string>, upstream: AskEndpoint.Upstream)
    requires text != "" && faq.a != ""
    ensures AskBackend(ToHttp(AskEndpoint.Respond(Some(text), Success(Some(faq)), apiKey, upstream))) == Success(faq.a)
  {
  }

  /** Every error response of the handler reaches the user as an error with a non-empty message. */
  lemma ErrorResponseReachesUser(resp: AskEndpoint.Response)
    requires resp.Error?
    ensures AskBackend(ToHttp(resp)).Failure?
    ensures resp.error != "" ==> AskBackend(ToHttp(resp)) == Failure(resp.error)
    ensures resp.error == "" ==> AskBackend(ToHttp(resp)) == Failure(UnknownError)
  {
  }

  /** The chat window's state: the history, the input box and the "typing" flag. */
  class ChatSession {
    var messages: seq<Message>
    var input: string
    var busy: bool

    /** The history alternates, and the assistant owes an answer exactly while busy. */
    ghost predicate Valid()
      reads this
    {
      Alternating(messages) && (busy <==> RoleAt(|messages|) == Assistant)
    }

    constructor()
      ensures messages == [Message(Assistant, Greeting)] && input == "" && !busy
      ensures Valid()
    {
      messages := [Message(Assistant, Greeting)];
      input := "";
      busy := false;
    }

    /** Typing into the input box, which is disabled while busy. */
    method Edit(s: string)
      requires Valid() && !busy
      modifies this
      ensures input == s && messages == old(messages) && busy == old(busy)
      ensures Valid()
    {
      input := s;
    }

    /**
     * `send` up to the backend request. Returns the question sent to the backend,
     * or None when nothing is sent (empty input, or a sensitive question answered
     * with the redirect).
     */
    method Send(cfg: FrontConfig, eng: Engine) returns (question: Option<string>)
      requires Valid() && !busy
      modifies this
      ensures Trim(old(input)) == "" ==>
        question.None? && messages == old(messages) && input == old(input) && !busy
      ensures Trim(old(input)) != "" ==>
        && input == ""
        && (question.Some? <==> Guard.PreGuard(Trim(old(input)), cfg.contact, eng.fold).None?)
        && (question.None? ==>
              messages == old(messages) + [Message(User, Trim(old(input))),
                                           Message(Assistant, Guard.PreGuard(Trim(old(input)), cfg.contact, eng.fold).value)]
              && !busy)
        && (question.Some? ==> question.value == Trim(old(input)) && messages == old(messages) + [Message(User, question.value)] && busy)
      ensures Valid()
    {
      var text := Trim(input);
      if text == "" {
        question := None;
      } else {
        question := Submit(cfg, eng, text);
      }
    }

    /** `send` once the input is known to be a non-empty question `text`. */
    method Submit(cfg: FrontConfig, eng: Engine, text: string) returns (question: Option<string>)
      requires Valid() && !busy && text != ""
      modifies this
      ensures input == ""
      ensures question.Some? <==> Guard.PreGuard(text, cfg.contact, eng.fold).None?
      ensures question.None? ==>
        messages == old(messages) + [Message(User, text), Message(Assistant, Guard.PreGuard(text, cfg.contact, eng.fold).value)]
        && !busy
      ensures question.Some? ==> question.value == text && messages == old(messages) + [Message(User, text)] && busy
      ensures Valid()
    {
      var blocked := Guard.PreGuard(text, cfg.contact, eng.fold);
      AppendKeepsAlternation(messages, Message(User, text));
      NextTurn(|messages|);
      messages := messages + [Message(User, text)];
      if blocked.Some? {
        AppendKeepsAlternation(messages, Message(Assistant, blocked.value));
        NextTurn(|messages|);
        messages := messages + [Message(Assistant, blocked.value)];
        question := None;
      } else {
        busy := true;
        question := Some(text);
      }
      input := "";
    }

    /** `send` after the backend call has settled: the assistant's message is appended and busy cleared. */
    method Deliver(cfg: FrontConfig, eng: Engine, reply: HttpReply)
      requires Valid() && busy
      modifies this
      ensures messages == old(messages) + [Message(Assistant, AssistantText(cfg, eng, AskBackend(reply)))]
      ensures input == old(input) && !busy
      ensures Valid()
    {
      var outcome := AskBackend(reply);
      AppendKeepsAlternation(messages, Message(Assistant, AssistantText(cfg, eng, outcome)));
      NextTurn(|messages|);
      messages := messages + [Message(Assistant, AssistantText(cfg, eng, outcome))];
      busy := false;
    }

    /** The second half of a `send` whose question `text` was sent: the history ends with the whole exchange. */
    method Answer(cfg: FrontConfig, eng: Engine, reply: HttpReply, ghost before: seq<Message>, ghost text: string)
      requires Valid() && busy
      requires text != "" && Guard.PreGuard(text, cfg.contact, eng.fold).None?
      requires messages == before + [Message(User, text)]
      modifies this
      ensures messages == before + Exchange(cfg, eng, text, reply)
      ensures input == old(input) && !busy
      ensures Valid()
    {
      Deliver(cfg, eng, reply);
      ExchangeSent(cfg, eng, text, reply);
      AppendTwo(before, Message(User, text), Message(Assistant, AssistantText(cfg, eng, AskBackend(reply))));
    }

    /** A whole `send`, with `reply` the backend's reply to the question. */
    method Converse(cfg: FrontConfig, eng: Engine, reply: HttpReply)
      requires Valid() && !busy
      modifies this
      ensures messages == old(messages) + Exchange(cfg, eng, Trim(old(input)), reply)
      ensures !busy && (Trim(old(input)) == "" ==> input == old(input)) && (Trim(old(input)) != "" ==> input == "")
      ensures Valid()
    {
      ghost var text := Trim(input);
      ghost var before := messages;
      var question := Send(cfg, eng);
      if question.Some? {
        Answer(cfg, eng, reply, before, text);
      } else if text != "" {
        ExchangeBlocked(cfg, eng, text, reply);
      } else {
        assert Exchange(cfg, eng, text, reply) == [];
      }
    }
  }
}

=== FILE: faq_matcher.dfy ===
/**
 * The FAQ matcher of backend/server.js: the embedding cache built from the FAQ
 * list (`generateEmbeddings`) and the best-match selection of `findFAQ`.
 *
 * The embedding service and cosine similarity are abstract: `embed` maps a
 * question to its vector, or to the message of the error the call throws, and
 * `sim(query, vector)` gives the similarity score.
 */
module FaqMatcher {
  import opened Wrappers

  type Vector = seq<real>

  /** An entry of the FAQ list: question `q` and stored answer `a`. */
  datatype FaqItem = FaqItem(q: string, a: string)

  /** A cache entry: the FAQ entry with the embedding vector of its question attached. */
  datatype CachedFaq = CachedFaq(q: string, a: string, vector: Vector)

  /** A best score must exceed this for the FAQ answer to be used. */
  const Threshold: real := 0.8

  /** What one call of the embedding service gives: the vector, or the message of the error it throws. */
  type Embedding = Result<Vector, string>

  /**
   * `Promise.all` over the FAQ list: `{ ...item, vector }` for every entry, in list
   * order, when every embedding call succeeds; otherwise the error of a failing call.
   */
  function EmbedAll(faqs: seq<FaqItem>, embed: string -> Embedding): (r: Result<seq<CachedFaq>, string>)
    ensures r.Success? <==> forall i :: 0 <= i < |faqs| ==> embed(faqs[i].q).Success?
    ensures r.Success? ==> |r.value| == |faqs|
    ensures r.Success? ==> forall i :: 0 <= i < |faqs| ==>
      r.value[i] == CachedFaq(faqs[i].q, faqs[i].a, embed(faqs[i].q).value)
    ensures r.Failure? ==> exists i :: 0 <= i < |faqs| && embed(faqs[i].q) == Failure(r.error)
  {
    if faqs == [] then Success([])
    else
      match embed(faqs[0].q)
      case Failure(e) => Failure(e)
      case Success(v) =>
        match EmbedAll(faqs[1..], embed)
        case Failure(e) =>
          assert exists i :: 0 <= i < |faqs[1..]| && embed(faqs[1..][i].q) == Failure(e);
          var i :| 0 <= i < |faqs[1..]| && embed(faqs[1..][i].q) == Failure(e);
          assert embed(faqs[i + 1].q) == Failure(e);
          Failure(e)
        case Success(rest) => Success([CachedFaq(faqs[0].q, faqs[0].a, v)] + rest)
  }

  /** Drops the vectors again. */
  function Forget(cache: seq<CachedFaq>): seq<FaqItem>
  {
    if cache == [] then [] else [FaqItem(cache[0].q, cache[0].a)] + Forget(cache[1..])
  }

  /** Building the cache neither drops, reorders nor alters FAQ entries. */
  lemma {:induction false} ForgetEmbedded(faqs: seq<FaqItem>, embed: string -> Embedding)
    requires EmbedAll(faqs, embed).Success?
    ensures Forget(EmbedAll(faqs, embed).value) == faqs
  {
    if faqs != [] {
      var cache := EmbedAll(faqs, embed).value;
      assert cache[1..] == EmbedAll(faqs[1..], embed).value;
      ForgetEmbedded(faqs[1..], embed);
    }
  }

  /** The cache `findFAQ` searches: the one it holds, or a freshly built one when it holds none. */
  function Filled(cache: seq<CachedFaq>, faqs: seq<FaqItem>, embed: string -> Embedding): Result<seq<CachedFaq>, string>
  {
    if cache == [] then EmbedAll(faqs, embed) else Success(cache)
  }

  /**
   * The cache after `findFAQ`: a filled cache is kept; an empty one is replaced by
   * the embedded FAQ list, unless building it failed, when it stays empty and the
   * next request tries again.
   */
  function CacheAfter(cache: seq<CachedFaq>, faqs: seq<FaqItem>, embed: string -> Embedding): (r: seq<CachedFaq>)
    ensures cache != [] ==> r == cache
    ensures r == [] <==> cache == [] && (faqs == [] || EmbedAll(faqs, embed).Failure?)
    ensures cache == [] && EmbedAll(faqs, embed).Success? ==> r == EmbedAll(faqs, embed).value
    ensures cache == [] && r != [] ==> Forget(r) == faqs
  {
    match Filled(cache, faqs, embed)
    case Failure(_) => cache
    case Success(filled) =>
      assert cache == [] ==> Forget(filled) == faqs by {
        if cache == [] { ForgetEmbedded(faqs, embed); }
      }
      filled
  }

  /** The similarity of the query to each cache entry, in cache order. */
  function Scores(cache: seq<CachedFaq>, query: Vector, sim: (Vector, Vector) -> real): seq<real>
  {
    seq(|cache|, i requires 0 <= i < |cache| => sim(query, cache[i].vector))
  }

  /** k holds a maximal score and every earlier score is strictly smaller: the first maximum. */
  predicate IsFirstMax(s: seq<real>, k: nat) {
    k < |s| && (forall j :: 0 <= j < |s| ==> s[j] <= s[k]) && (forall j :: 0 <= j < k ==> s[j] < s[k])
  }

  /** Reference definition of the first maximum, computed from the right. */
  function FirstMax(s: seq<real>): (k: nat)
    requires |s| > 0
    ensures IsFirstMax(s, k)
  {
    if |s| == 1 then 0
    else
      var k := FirstMax(s[1..]);
      if s[0] >= s[k + 1] then 0 else k + 1
  }

  /** There is only one first maximum. */
  lemma FirstMaxUnique(s: seq<real>, k1: nat, k2: nat)
    requires IsFirstMax(s, k1) && IsFirstMax(s, k2)
    ensures k1 == k2
  {
    assert s[k1] == s[k2];
  }

  /** The entry `findFAQ` answers with: the first maximum, if it scores above the threshold. */
  function Selection(s: seq<real>): (r: Option<nat>)
    ensures r.Some? <==> exists j :: 0 <= j < |s| && s[j] > Threshold
    ensures r.Some? ==> IsFirstMax(s, r.value) && s[r.value] > Threshold
  {
    if |s| == 0 then None
    else
      var k := FirstMax(s);
      if s[k] > Threshold then Some(k) else None
  }

  /** The cache entry chosen for a query vector, if any. */
  function Lookup(cache: seq<CachedFaq>, query: Vector, sim: (Vector, Vector) -> real): (r: Option<CachedFaq>)
    ensures r.Some? <==> exists j :: 0 <= j < |cache| && sim(query, cache[j].vector) > Threshold
    ensures r.Some? ==> exists k: nat :: k < |cache| && IsFirstMax(Scores(cache, query, sim), k) && r.value == cache[k]
  {
    var s := Scores(cache, query, sim);
    assert forall j :: 0 <= j < |cache| ==> s[j] == sim(query, cache[j].vector);
    match Selection(s)
    case None => None
    case Some(k) => Some(cache[k])
  }

  /**
   * The selection loop of `findFAQ`: `best` starts null and `bestScore` 0, and an
   * entry replaces them only when its score is strictly greater. `best` is the
   * index of the chosen entry.
   */
  method BestMatch(cache: seq<CachedFaq>, query: Vector, sim: (Vector, Vector) -> real)
    returns (best: Option<nat>, bestScore: real)
    ensures bestScore >= 0.0
    ensures forall j :: 0 <= j < |cache| ==> sim(query, cache[j].vector) <= bestScore
    ensures best.None? <==> forall j :: 0 <= j < |cache| ==> sim(query, cache[j].vector) <= 0.0
    ensures best.None? ==> bestScore == 0.0
    ensures best.Some? ==> IsFirstMax(Scores(cache, query, sim), best.value)
    ensures best.Some? ==> bestScore == sim(query, cache[best.value].vector)
  {
    best, bestScore := None, 0.0;
    for i := 0 to |cache|
      invariant bestScore >= 0.0
      invariant forall j :: 0 <= j < i ==> sim(query, cache[j].vector) <= bestScore
      invariant best.None? ==> bestScore == 0.0
      invariant best.Some? ==> best.value < i && bestScore == sim(query, cache[best.value].vector) && bestScore > 0.0
      invariant best.Some? ==> forall j :: 0 <= j < best.value ==> sim(query, cache[j].vector) < bestScore
    {
      var score := sim(query, cache[i].vector);
      if score > bestScore {
        bestScore := score;
        best := Some(i);
      }
    }
  }

  /**
   * A query that matches some entry perfectly (score 1, and no score is above 1,
   * as for cosine similarity) is answered from the FAQ with a perfect match.
   */
  lemma PerfectMatchIsSelected(s: seq<real>, k: nat)
    requires k < |s| && s[k] == 1.0
    requires forall j :: 0 <= j < |s| ==> s[j] <= 1.0
    ensures Selection(s).Some? && s[Selection(s).value] == 1.0
  {
  }

  /**
   * What `findFAQ` resolves to, or the message it rejects with: a failed fill of
   * an empty cache rejects before the question is embedded; then a failed
   * embedding of the question rejects; otherwise the lookup decides.
   */
  function FindOutcome(cache: seq<CachedFaq>, faqs: seq<FaqItem>, question: string,
                       embed: string -> Embedding, sim: (Vector, Vector) -> real): (r: Result<Option<CachedFaq>, string>)
    ensures r.Failure? <==> Filled(cache, faqs, embed).Failure? || embed(question).Failure?
    ensures Filled(cache, faqs, embed).Failure? ==> r == Failure(Filled(cache, faqs, embed).error)
    ensures r.Failure? ==>
      embed(question) == Failure(r.error) ||
      (cache == [] && exists i :: 0 <= i < |faqs| && embed(faqs[i].q) == Failure(r.error))
    ensures r.Success? ==> r.value == Lookup(CacheAfter(cache, faqs, embed), embed(question).value, sim)
  {
    match Filled(cache, faqs, embed)
    case Failure(e) => Failure(e)
    case Success(filled) =>
      match embed(question)
      case Failure(e) => Failure(e)
      case Success(vector) => Success(Lookup(filled, vector, sim))
  }

  /** The process-wide embedding cache of the FAQ list. */
  class FaqIndex {
    /** The FAQ list, fixed at start-up. */
    const faqs: seq<FaqItem>
    var embeddingsCache: seq<CachedFaq>

    constructor (faqs: seq<FaqItem>)
      ensures this.faqs == faqs && embeddingsCache == []
    {
      this.faqs := faqs;
      embeddingsCache := [];
    }

    /**
     * Replaces the cache with the embedded FAQ list. When an embedding call throws,
     * `Promise.all` rejects before the assignment: the cache is left as it was and
     * the error is returned.
     */
    method GenerateEmbeddings(embed: string -> Embedding) returns (error: Option<string>)
      modifies this
      ensures EmbedAll(faqs, embed).Success? ==> error.None? && embeddingsCache == EmbedAll(faqs, embed).value
      ensures EmbedAll(faqs, embed).Failure? ==>
        error == Some(EmbedAll(faqs, embed).error) && embeddingsCache == old(embeddingsCache)
    {
      match EmbedAll(faqs, embed)
      case Success(cache) =>
        embeddingsCache := cache;
        error := None;
      case Failure(e) =>
        error := Some(e);
    }

    /**
     * `findFAQ`: fills the cache first when it is empty, embeds the question,
     * selects the best entry and keeps it only above the threshold. A thrown
     * embedding call becomes the `Failure` it rejects with.
     */
    method FindFAQ(question: string, embed: string -> Embedding, sim: (Vector, Vector) -> real)
      returns (faq: Result<Option<CachedFaq>, string>)
      modifies this
      ensures embeddingsCache == CacheAfter(old(embeddingsCache), faqs, embed)
      ensures faq == FindOutcome(old(embeddingsCache), faqs, question, embed, sim)
    {
      if |embeddingsCache| == 0 {
        var error := GenerateEmbeddings(embed);
        if error.Some? {
          return Failure(error.value);
        }
      }
      var qEmb := embed(question);
      if qEmb.Failure? {
        return Failure(qEmb.error);
      }
      var vector := qEmb.value;
      var best, bestScore := BestMatch(embeddingsCache, vector, sim);
      var found: Option<CachedFaq> := None;
      if bestScore > Threshold {
        match best
        case Some(k) => found := Some(embeddingsCache[k]);
        case None =>
      }
      ghost var s := Scores(embeddingsCache, vector, sim);
      if best.Some? && s[best.value] > Threshold {
        FirstMaxUnique(s, best.value, FirstMax(s));
      }
      faq := Success(found);
    }
  }
}

=== FILE: global_replace.dfy ===
/**
 * `String.prototype.replace` with a global regex, as a left-to-right scan.
 *
 * The regex engine looks for the leftmost position where the pattern matches;
 * at each position the patterns of this model have at most one match, found by
 * `at(text, i)`. A match is replaced by `repl(ctx, m)`; the scan then resumes at
 * the end of the match. Characters where no match starts are copied. None of the
 * patterns used here can match the empty string, so every match ends after it
 * starts (`Advances`).
 */
module GlobalReplace {
  import opened Wrappers

  ghost predicate Advances<M>(text: string, at: (string, nat) -> Option<M>, end: M -> nat) {
    forall j :: 0 <= j < |text| && at(text, j).Some? ==> j < end(at(text, j).value) <= |text|
  }

  function ReplaceFrom<C, M>(text: string, i: nat, at: (string, nat) -> Option<M>, end: M -> nat,
                             repl: (C, M) -> string, ctx: C): string
    requires i <= |text| && Advances(text, at, end)
    decreases |text| - i
  {
    if i == |text| then []
    else match at(text, i)
      case None => [text[i]] + ReplaceFrom(text, i + 1, at, end, repl, ctx)
      case Some(m) => repl(ctx, m) + ReplaceFrom(text, end(m), at, end, repl, ctx)
  }

  /** A match is replaced, and the scan resumes where it ends. */
  lemma ReplaceAtMatch<C, M>(text: string, i: nat, at: (string, nat) -> Option<M>, end: M -> nat,
                             repl: (C, M) -> string, ctx: C)
    requires i < |text| && Advances(text, at, end) && at(text, i).Some?
    ensures end(at(text, i).value) <= |text|
    ensures ReplaceFrom(text, i, at, end, repl, ctx)
            == repl(ctx, at(text, i).value) + ReplaceFrom(text, end(at(text, i).value), at, end, repl, ctx)
  {
  }

  /** A stretch where no match starts is copied unchanged. */
  lemma {:induction false} ReplaceSkip<C, M>(text: string, i: nat, k: nat, at: (string, nat) -> Option<M>,
                                             end: M -> nat, repl: (C, M) -> string, ctx: C)
    requires i <= k <= |text| && Advances(text, at, end)
    requires forall j :: i <= j < k ==> at(text, j).None?
    ensures ReplaceFrom(text, i, at, end, repl, ctx) == text[i..k] + ReplaceFrom(text, k, at, end, repl, ctx)
    decreases k - i
  {
    if i < k {
      assert at(text, i).None?;
      assert ReplaceFrom(text, i, at, end, repl, ctx) == [text[i]] + ReplaceFrom(text, i + 1, at, end, repl, ctx);
      ReplaceSkip(text, i + 1, k, at, end, repl, ctx);
      assert text[i..k] == [text[i]] + text[i + 1..k];
    }
  }

  /** Text in which the pattern never matches passes through unchanged. */
  lemma ReplaceNoMatch<C, M>(text: string, at: (string, nat) -> Option<M>, end: M -> nat,
                             repl: (C, M) -> string, ctx: C)
    requires Advances(text, at, end)
    requires forall j :: 0 <= j < |text| ==> at(text, j).None?
    ensures ReplaceFrom(text, 0, at, end, repl, ctx) == text
  {
    ReplaceSkip(text, 0, |text|, at, end, repl, ctx);
  }

  /** Every match would be replaced by exactly the text it matched. */
  ghost predicate Verbatim<C, M>(text: string, at: (string, nat) -> Option<M>, end: M -> nat,
                                 repl: (C, M) -> string, ctx: C)
    requires Advances(text, at, end)
  {
    forall j :: 0 <= j < |text| && at(text, j).Some? ==> repl(ctx, at(text, j).value) == text[j..end(at(text, j).value)]
  }

  /** A replacement that gives back every match verbatim leaves the text unchanged. */
  lemma {:induction false} ReplaceVerbatim<C, M>(text: string, i: nat, at: (string, nat) -> Option<M>,
                                                 end: M -> nat, repl: (C, M) -> string, ctx: C)
    requires i <= |text| && Advances(text, at, end)
    requires Verbatim(text, at, end, repl, ctx)
    ensures ReplaceFrom(text, i, at, end, repl, ctx) == text[i..]
    decreases |text| - i
  {
    if i < |text| {
      match at(text, i)
      case None =>
        ReplaceVerbatim(text, i + 1, at, end, repl, ctx);
        assert text[i..] == [text[i]] + text[i + 1..];
      case Some(m) =>
        ReplaceVerbatim(text, end(m), at, end, repl, ctx);
        assert text[i..] == text[i..end(m)] + text[end(m)..];
    }
  }
}

=== FILE: guard.dfy ===
/**
 * `preGuard` of frontend/app.js: a question that touches a sensitive subject
 * (pay, pregnancy, religion, age, visas, residence permits, interview questions)
 * is not sent to the backend; the user is referred to the HR contact instead.
 */
module Guard {
  import opened Wrappers
  import opened JsText

  /** The alternatives of the case-insensitive pattern `SENSITIVE`. */
  const SensitiveWords: seq<string> :=
    ["maaş", "salary", "pazarlık", "hamile", "dini", "yaş", "vize", "oturum", "mülakat soruları"]

  /** Used when the configuration has no contact link. */
  const DefaultContact: string := "https://betaenerji.com/iletisim"

  const RedirectLead: string :=
    "Bu konu özel değerlendirme/hukuki danışmanlık gerektirebilir. Resmî bilgi için İK: "

  /** `CONFIG.links?.contact || DefaultContact`. */
  function ContactLink(contact: Option<string>): (c: string)
    ensures c != ""
    ensures Truthy(contact) ==> c == contact.value
    ensures !Truthy(contact) ==> c == DefaultContact
  {
    if Truthy(contact) then contact.value else DefaultContact
  }

  /**
   * The redirect message, or None (`null`) when no sensitive word occurs in the
   * question under the case fold.
   */
  function PreGuard(text: string, contact: Option<string>, fold: char -> char): (r: Option<string>)
    ensures r.None? <==> forall w | w in SensitiveWords :: !Occurs(text, w, fold)
    ensures r.Some? ==> r.value == RedirectLead + ContactLink(contact)
    ensures r.Some? ==> Truthy(r)
  {
    if exists w | w in SensitiveWords :: Contains(text, w, fold) then
      Some(RedirectLead + ContactLink(contact))
    else None
  }

  /** A question that mentions pay is always redirected, whatever the case fold is. */
  lemma SalaryQuestionRedirected(text: string, i: nat, contact: Option<string>, fold: char -> char)
    requires i + |"maaş"| <= |text| && text[i..i + |"maaş"|] == "maaş"
    ensures PreGuard(text, contact, fold) == Some(RedirectLead + ContactLink(contact))
  {
    LiteralOccurs(text, "maaş", i, fold);
    assert "maaş" in SensitiveWords;
  }
}

=== FILE: js_text.dfy ===
/**
 * The pieces of JavaScript string semantics that both backend/server.js and
 * frontend/app.js rely on: the whitespace set of `String.prototype.trim` and of
 * the regex class `\s`, truthiness of an optional string, `trim()` itself,
 * case-insensitive literal search (a regex alternative of plain characters under
 * the `i` flag, with case folding left abstract) and `Array.prototype.join`.
 */
module JsText {
  import opened Wrappers

  /** ECMAScript WhiteSpace and LineTerminator code points: what `trim()` strips and `\s` matches. */
  predicate IsSpace(c: char) {
    c == '\t' || c == '\n' || c == '\U{000B}' || c == '\U{000C}' || c == '\r' || c == ' ' ||
    c == '\U{00A0}' || c == '\U{1680}' || ('\U{2000}' <= c <= '\U{200A}') ||
    c == '\U{2028}' || c == '\U{2029}' || c == '\U{202F}' || c == '\U{205F}' ||
    c == '\U{3000}' || c == '\U{FEFF}'
  }

  /** The regex class `\d` (ASCII digits only). */
  predicate IsDigit(c: char) {
    '0' <= c <= '9'
  }

  /** The regex class `\w` without the `u` flag: ASCII letters, digits and underscore. */
  predicate IsWordChar(c: char) {
    ('a' <= c <= 'z') || ('A' <= c <= 'Z') || IsDigit(c) || c == '_'
  }

  /** JavaScript truthiness of a value that is either a string or absent: absent and "" are falsy. */
  predicate Truthy(v: Option<string>) {
    v.Some? && v.value != ""
  }

  /** No whitespace at either end. */
  predicate IsTrimmed(s: string) {
    s == [] || (!IsSpace(s[0]) && !IsSpace(s[|s| - 1]))
  }

  predicate AllSpace(s: string) {
    forall k :: 0 <= k < |s| ==> IsSpace(s[k])
  }

  /** The first position at or after `from` whose character satisfies `p`, or |text| when there is none. */
  function FirstWhere(text: string, p: char -> bool, from: nat): (k: nat)
    requires from <= |text|
    ensures from <= k <= |text|
    ensures k < |text| ==> p(text[k])
    ensures forall j :: from <= j < k ==> !p(text[j])
    decreases |text| - from
  {
    if from == |text| then from
    else if p(text[from]) then from
    else FirstWhere(text, p, from + 1)
  }

  /** FirstWhere is pinned down by a satisfying position with none before it. */
  lemma FirstWhereAt(text: string, p: char -> bool, from: nat, k: nat)
    requires from <= k <= |text|
    requires k < |text| ==> p(text[k])
    requires forall j :: from <= j < k ==> !p(text[j])
    ensures FirstWhere(text, p, from) == k
  {
  }

  /** Three adjacent slices make up the slice they span. */
  lemma SliceSplit(text: string, a: nat, b: nat, c: nat, d: nat)
    requires a <= b <= c <= d <= |text|
    ensures text[a..d] == text[a..b] + text[b..c] + text[c..d]
  {
  }

  function TrimStart(s: string): (r: string)
    ensures |r| <= |s| && r == s[|s| - |r|..]
    ensures AllSpace(s[..|s| - |r|])
    ensures r == [] || !IsSpace(r[0])
  {
    if |s| > 0 && IsSpace(s[0]) then
      var r := TrimStart(s[1..]);
      assert s[..|s| - |r|] == [s[0]] + s[1..][..|s| - 1 - |r|];
      r
    else s
  }

  function TrimEnd(s: string): (r: string)
    ensures |r| <= |s| && r == s[..|r|]
    ensures AllSpace(s[|r|..])
    ensures r == [] || !IsSpace(r[|r| - 1])
  {
    if |s| > 0 && IsSpace(s[|s| - 1]) then
      var r := TrimEnd(s[..|s| - 1]);
      assert s[|r|..] == s[..|s| - 1][|r|..] + [s[|s| - 1]];
      r
    else s
  }

  /**
   * `String.prototype.trim`: the result is the infix of `s` left after removing a
   * whitespace prefix and a whitespace suffix, and it has no whitespace at either end.
   */
  function Trim(s: string): (r: string)
    ensures exists i, j :: 0 <= i <= j <= |s| && r == s[i..j] && AllSpace(s[..i]) && AllSpace(s[j..])
    ensures IsTrimmed(r)
  {
    var t := TrimStart(s);
    var i := |s| - |t|;
    var r := TrimEnd(t);
    var j := i + |r|;
    assert r == s[i..j] && s[j..] == t[|r|..];
    assert AllSpace(s[..i]) && AllSpace(s[j..]);
    assert r != [] ==> r[0] == t[0];
    r
  }

  /** `trim()` gives "" exactly for the all-whitespace strings. */
  lemma TrimEmptyIffAllSpace(s: string)
    ensures Trim(s) == [] <==> AllSpace(s)
  {
    var t := TrimStart(s);
    var n := |s| - |t|;
    if Trim(s) == [] {
      assert AllSpace(t[0..]) && t[0..] == t;
      assert t == [] && s[..n] == s;
    }
  }

  /** Trimming a trimmed string changes nothing; in particular `trim()` is idempotent. */
  lemma TrimOfTrimmed(s: string)
    requires IsTrimmed(s)
    ensures Trim(s) == s
  {
    var i, j :| 0 <= i <= j <= |s| && Trim(s) == s[i..j] && AllSpace(s[..i]) && AllSpace(s[j..]);
    if s != [] {
      if i > 0 { assert s[..i][0] == s[0]; }
      if j < |s| { assert s[j..][|s| - 1 - j] == s[|s| - 1]; }
    }
  }

  /** Pattern `pat` occurs at position i of `text` when both are compared through the case fold. */
  predicate MatchesAt(text: string, pat: string, i: nat, fold: char -> char) {
    i + |pat| <= |text| && forall j :: 0 <= j < |pat| ==> fold(text[i + j]) == fold(pat[j])
  }

  /** What `/pat/i.test(text)` answers for a pattern made of plain characters. */
  ghost predicate Occurs(text: string, pat: string, fold: char -> char) {
    exists i: nat :: MatchesAt(text, pat, i, fold)
  }

  /** The leftmost occurrence of `pat` at or after `from`. */
  function FindFrom(text: string, pat: string, fold: char -> char, from: nat): (r: Option<nat>)
    ensures r.Some? ==> from <= r.value && MatchesAt(text, pat, r.value, fold)
    ensures r.Some? ==> forall k :: from <= k < r.value ==> !MatchesAt(text, pat, k, fold)
    ensures r.None? ==> forall k :: from <= k ==> !MatchesAt(text, pat, k, fold)
    decreases |text| - from
  {
    if from + |pat| > |text| then None
    else if MatchesAt(text, pat, from, fold) then Some(from)
    else FindFrom(text, pat, fold, from + 1)
  }

  /** The regex test itself: true exactly when the pattern occurs somewhere. */
  predicate Contains(text: string, pat: string, fold: char -> char)
    ensures Contains(text, pat, fold) <==> Occurs(text, pat, fold)
  {
    FindFrom(text, pat, fold, 0).Some?
  }

  /** `pat` stands literally, without case folding, at position i of `text`. */
  predicate StartsAt(text: string, pat: string, i: nat) {
    i + |pat| <= |text| && text[i..i + |pat|] == pat
  }

  /** A literal occurrence is found whatever the case fold is. */
  lemma LiteralOccurs(text: string, pat: string, i: nat, fold: char -> char)
    requires StartsAt(text, pat, i)
    ensures Contains(text, pat, fold)
  {
    forall j | 0 <= j < |pat| ensures text[i + j] == pat[j] {
      assert text[i..i + |pat|][j] == text[i + j];
    }
    assert MatchesAt(text, pat, i, fold);
  }

  /** `Array.prototype.join(sep)` on an array of strings. */
  function Join(parts: seq<string>, sep: string): string
  {
    if |parts| == 0 then []
    else if |parts| == 1 then parts[0]
    else parts[0] + sep + Join(parts[1..], sep)
  }

  /** Appending an element appends the separator and that element: elements stay in order. */
  lemma {:induction false} JoinAppend(parts: seq<string>, p: string, sep: string)
    requires |parts| > 0
    ensures Join(parts + [p], sep) == Join(parts, sep) + sep + p
  {
    if |parts| == 1 {
      assert parts + [p] == [parts[0], p];
    } else {
      assert (parts + [p])[1..] == parts[1..] + [p];
      JoinAppend(parts[1..], p, sep);
    }
  }
}

=== FILE: links.dfy ===
/**
 * `sanitizeLinks` of frontend/app.js: two global regex replacements that drop
 * links whose URL no whitelist pattern accepts.
 *
 *   1. markdown links  `\[([^\]]+)\]\((https?:\/\/[^)]+)\)`
 *   2. bare URLs       `(https?:\/\/\S+?)([),.;!?]*)(\s|$)`
 *
 * Each pattern is matched by an operational function (`MdLinkAt`, `BareUrlAt`)
 * that is proved to agree with a declarative reading of the regex at that
 * position, including the backtracking of `[^\]]+` and the laziness of `\S+?`.
 * The whitelist patterns are compiled at run time from configuration; whether a
 * pattern accepts a URL is the abstract `test`.
 */
module Links {
  import opened Wrappers
  import opened JsText
  import GlobalReplace

  const Removed: string := "[link kaldırıldı]"

  /** `CONFIG.whitelist` and the case-insensitive test of one pattern against a URL. */
  datatype Whitelist = Whitelist(patterns: seq<string>, test: (string, string) -> bool)

  /** `isOk`: some whitelist pattern accepts the URL, so an empty whitelist accepts none. */
  predicate IsOk(wl: Whitelist, url: string)
    ensures wl.patterns == [] ==> !IsOk(wl, url)
  {
    exists p :: p in wl.patterns && wl.test(p, url)
  }

  /** Length of the `https?:\/\/` at position i, or 0; `s?` tries "https://" first. */
  function SchemeAt(text: string, i: nat): (n: nat)
    ensures n == 0 || n == 7 || n == 8
    ensures n > 0 ==> i + n <= |text|
    ensures n == 0 <==> !StartsAt(text, "https://", i) && !StartsAt(text, "http://", i)
  {
    if StartsAt(text, "https://", i) then 8 else if StartsAt(text, "http://", i) then 7 else 0
  }

  /** The scheme of an infix is the scheme of the text at that position. */
  lemma SchemeOfInfix(text: string, x: nat, y: nat)
    requires x <= y <= |text|
    ensures SchemeAt(text[x..y], 0) > 0 ==> SchemeAt(text, x) == SchemeAt(text[x..y], 0)
  {
    var u := text[x..y];
    if StartsAt(u, "https://", 0) {
      assert u[0..8] == text[x..x + 8];
    } else if StartsAt(u, "http://", 0) {
      assert u[0..7] == text[x..x + 7];
      assert text[x + 4] == u[0..7][4] == ':';
      assert !StartsAt(text, "https://", x) by {
        if x + 8 <= |text| {
          assert text[x..x + 8][4] == ':';
        }
      }
    }
  }

  /** `https?:\/\/` and at least one more character. */
  predicate HasUrlBody(url: string) {
    SchemeAt(url, 0) > 0 && |url| > SchemeAt(url, 0)
  }

  predicate IsCloseBracket(c: char) { c == ']' }
  predicate IsCloseParen(c: char) { c == ')' }

  // ---------------------------------------------------------------------------
  // Pass 1: markdown links

  /** A markdown-link match: where its `]` stands, where it ends, the matched text and its two groups. */
  datatype MdLink = MdLink(close: nat, end: nat, whole: string, linkText: string, url: string)

  /**
   * The strings `\[([^\]]+)\]\((https?:\/\/[^)]+)\)` matches, with groups `linkText`
   * and `url`.
   */
  predicate IsMdLink(s: string, linkText: string, url: string) {
    s == "[" + linkText + "](" + url + ")" && linkText != [] && ']' !in linkText && ')' !in url && HasUrlBody(url)
  }

  /**
   * The markdown-link match starting at i: the linkText runs to the first `]`, which
   * must be followed by `(`; the URL runs to the next `)`.
   */
  function MdLinkAt(text: string, i: nat): (r: Option<MdLink>)
    ensures r.Some? ==> i + 1 < r.value.close && r.value.close + 2 < r.value.end <= |text|
    ensures r.Some? ==> r.value.whole == text[i..r.value.end] && r.value.linkText == text[i + 1..r.value.close]
    ensures r.Some? ==> r.value.url == text[r.value.close + 2..r.value.end - 1]
    ensures r.Some? ==> IsMdLink(r.value.whole, r.value.linkText, r.value.url)
  {
    if i < |text| && text[i] == '[' then
      var b := FirstWhere(text, IsCloseBracket, i + 1);
      if i + 1 < b && b + 1 < |text| && text[b + 1] == '(' then
        var e := FirstWhere(text, IsCloseParen, b + 2);
        if e < |text| && HasUrlBody(text[b + 2..e]) then
          MdLinkShape(text, i, b, e);
          NotInSlice(text, i + 1, b, ']');
          NotInSlice(text, b + 2, e, ')');
          Some(MdLink(b, e + 1, text[i..e + 1], text[i + 1..b], text[b + 2..e]))
        else None
      else None
    else None
  }

  /** The text from an opening `[` to a `)` has the shape of a markdown link. */
  lemma MdLinkShape(text: string, i: nat, b: nat, e: nat)
    requires i + 1 < b && b + 2 <= e < |text|
    requires text[i] == '[' && text[b] == ']' && text[b + 1] == '(' && text[e] == ')'
    ensures text[i..e + 1] == "[" + text[i + 1..b] + "](" + text[b + 2..e] + ")"
  {
    SliceSplit(text, i, i + 1, b, e + 1);
    SliceSplit(text, b, b + 2, e, e + 1);
    assert text[i..i + 1] == "[";
    assert text[b..b + 2] == "](";
    assert text[e..e + 1] == ")";
    ConcatFive("[", text[i + 1..b], "](", text[b + 2..e], ")");
  }

  /** A character absent from a stretch of the text is absent from that slice. */
  lemma NotInSlice(text: string, lo: nat, hi: nat, c: char)
    requires lo <= hi <= |text| && forall j :: lo <= j < hi ==> text[j] != c
    ensures c !in text[lo..hi]
  {
    forall j | 0 <= j < hi - lo ensures text[lo..hi][j] != c {
      assert text[lo..hi][j] == text[lo + j];
    }
  }

  /**
   * Whenever the regex's language has a member at position i, `MdLinkAt` reports
   * exactly that match; so the match at a position is unique.
   */
  lemma MdLinkAtComplete(text: string, i: nat, s: string, linkText: string, url: string)
    requires i + |s| <= |text| && text[i..i + |s|] == s && IsMdLink(s, linkText, url)
    ensures MdLinkAt(text, i) == Some(MdLink(i + 1 + |linkText|, i + |s|, s, linkText, url))
  {
    var b := i + 1 + |linkText|;
    var e := b + 2 + |url|;
    MdLinkBracket(text, i, b, s, linkText, url);
    MdLinkParen(text, i, b, e, s, linkText, url);
    MdLinkAtFound(text, i, b, e);
    MdLinkAtValue(text, i, b, e, s, linkText, url);
  }

  /** The match `MdLinkAt` reports is determined by where its `]` and its end are. */
  lemma MdLinkAtValue(text: string, i: nat, b: nat, e: nat, s: string, linkText: string, url: string)
    requires MdLinkAt(text, i).Some? && MdLinkAt(text, i).value.close == b && MdLinkAt(text, i).value.end == e + 1
    requires text[i..e + 1] == s && text[i + 1..b] == linkText && text[b + 2..e] == url
    ensures MdLinkAt(text, i) == Some(MdLink(b, e + 1, s, linkText, url))
  {
  }

  /** `MdLinkAt` once its two searches are known. */
  lemma MdLinkAtFound(text: string, i: nat, b: nat, e: nat)
    requires i + 1 < b && b + 1 < |text| && e < |text| && text[i] == '[' && text[b + 1] == '('
    requires FirstWhere(text, IsCloseBracket, i + 1) == b && FirstWhere(text, IsCloseParen, b + 2) == e
    requires HasUrlBody(text[b + 2..e])
    ensures MdLinkAt(text, i).Some? && MdLinkAt(text, i).value.close == b && MdLinkAt(text, i).value.end == e + 1
  {
  }

  /** In a text holding a markdown link at i, the first `]` after i, at b, closes the link text. */
  lemma MdLinkBracket(text: string, i: nat, b: nat, s: string, linkText: string, url: string)
    requires i + |s| <= |text| && text[i..i + |s|] == s && IsMdLink(s, linkText, url)
    requires b == i + 1 + |linkText|
    ensures i + 1 < b && b + 1 < |text| && text[i] == '[' && text[b + 1] == '(' && text[i + 1..b] == linkText
    ensures FirstWhere(text, IsCloseBracket, i + 1) == b
  {
    MdLinkParts(s, linkText, url);
    InfixAt(text, i, s, 0, 1);
    InfixAt(text, i, s, 1, b - i);
    InfixAt(text, i, s, b - i, b - i + 2);
    assert text[b..b + 2] == "](";
    assert text[b] == ']';
    forall j | i + 1 <= j < b ensures !IsCloseBracket(text[j]) {
      assert text[j] == text[i + 1..b][j - i - 1];
    }
    FirstWhereAt(text, IsCloseBracket, i + 1, b);
  }

  /** ... and the first `)` after the `(`, at e, closes the URL and the match. */
  lemma MdLinkParen(text: string, i: nat, b: nat, e: nat, s: string, linkText: string, url: string)
    requires i + |s| <= |text| && text[i..i + |s|] == s && IsMdLink(s, linkText, url)
    requires b == i + 1 + |linkText| && e == b + 2 + |url|
    ensures e < |text| && e + 1 == i + |s| && text[i..e + 1] == s
    ensures text[b + 2..e] == url && HasUrlBody(text[b + 2..e])
    ensures FirstWhere(text, IsCloseParen, b + 2) == e
  {
    MdLinkParts(s, linkText, url);
    InfixAt(text, i, s, b - i + 2, e - i);
    InfixAt(text, i, s, e - i, e - i + 1);
    assert text[e..e + 1] == ")";
    assert text[e] == ')';
    forall j | b + 2 <= j < e ensures !IsCloseParen(text[j]) {
      assert text[j] == text[b + 2..e][j - b - 2];
    }
    FirstWhereAt(text, IsCloseParen, b + 2, e);
  }

  lemma ConcatFive(a: string, b: string, c: string, d: string, e: string)
    ensures a + b + c + d + e == a + b + (c + d + e)
  {
  }

  /** A slice of an infix of `text` is the corresponding slice of `text`. */
  lemma InfixAt(text: string, i: nat, s: string, a: nat, c: nat)
    requires i + |s| <= |text| && text[i..i + |s|] == s && a <= c <= |s|
    ensures text[i + a..i + c] == s[a..c]
  {
    forall k | 0 <= k < c - a ensures text[i + a..i + c][k] == s[a..c][k] {
      assert text[i + a + k] == text[i..i + |s|][a + k];
    }
  }

  /** Where the brackets, the link text and the URL sit in a markdown link. */
  lemma MdLinkParts(s: string, linkText: string, url: string)
    requires s == "[" + linkText + "](" + url + ")"
    ensures |s| == |linkText| + |url| + 4
    ensures s[0] == '[' && s[1 + |linkText|] == ']' && s[2 + |linkText|] == '(' && s[|s| - 1] == ')'
    ensures s[0..1] == "[" && s[1 + |linkText|..3 + |linkText|] == "](" && s[|s| - 1..] == ")"
    ensures s[1..1 + |linkText|] == linkText && s[3 + |linkText|..|s| - 1] == url
  {
  }

  function MdEnd(m: MdLink): nat { m.end }

  /** A whitelisted link is kept verbatim; otherwise only its linkText stays, followed by the removal notice. */
  function MdReplacement(wl: Whitelist, m: MdLink): string
  {
    if IsOk(wl, m.url) then m.whole else m.linkText + " " + Removed
  }

  lemma MdLinkAdvances(text: string)
    ensures GlobalReplace.Advances(text, MdLinkAt, MdEnd)
  {
  }

  /** Pass 1 from position i on. */
  function MarkdownPass(text: string, i: nat, wl: Whitelist): string
    requires i <= |text|
  {
    MdLinkAdvances(text);
    GlobalReplace.ReplaceFrom(text, i, MdLinkAt, MdEnd, MdReplacement, wl)
  }

  function StripMarkdownLinks(text: string, wl: Whitelist): string
  {
    MarkdownPass(text, 0, wl)
  }

  /** Pass 1 changes nothing where no markdown link matches, or when every URL is whitelisted. */
  lemma StripMarkdownLinksIdentity(text: string, wl: Whitelist)
    ensures (forall j :: 0 <= j < |text| ==> MdLinkAt(text, j).None?) ==> StripMarkdownLinks(text, wl) == text
    ensures (forall url :: IsOk(wl, url)) ==> StripMarkdownLinks(text, wl) == text
  {
    MdLinkAdvances(text);
    if forall j :: 0 <= j < |text| ==> MdLinkAt(text, j).None? {
      GlobalReplace.ReplaceNoMatch(text, MdLinkAt, MdEnd, MdReplacement, wl);
    }
    if forall url :: IsOk(wl, url) {
      GlobalReplace.ReplaceVerbatim(text, 0, MdLinkAt, MdEnd, MdReplacement, wl);
    }
  }

  // ---------------------------------------------------------------------------
  // Pass 2: bare URLs

  /**
   * A bare-URL match: where its first group (`url`) and second group (`trail`)
   * end, where the whole match ends, and the three groups (`sep` is "" at the
   * end of the text).
   */
  datatype BareUrl = BareUrl(urlEnd: nat, trailEnd: nat, end: nat, url: string, trail: string, sep: string)

  /** The class `[),.;!?]`. */
  predicate IsTrailChar(c: char) {
    c == ')' || c == ',' || c == '.' || c == ';' || c == '!' || c == '?'
  }

  /** The start of the longest run of trail characters that ends at `hi`, not reaching below `lo`. */
  function TrailStart(text: string, lo: nat, hi: nat): (t: nat)
    requires lo <= hi <= |text|
    ensures lo <= t <= hi
    ensures forall k :: t <= k < hi ==> IsTrailChar(text[k])
    ensures t > lo ==> !IsTrailChar(text[t - 1])
    decreases hi - lo
  {
    if hi > lo && IsTrailChar(text[hi - 1]) then TrailStart(text, lo, hi - 1) else hi
  }

  /**
   * `(https?:\/\/\S+?)([),.;!?]*)(\s|$)` matches at i with its first group ending
   * at p, its second at q and the whole match at e.
   */
  ghost predicate BareUrlShape(text: string, i: nat, p: nat, q: nat, e: nat) {
    var n := SchemeAt(text, i);
    && n > 0 && i + n < p <= q <= e <= |text|
    && (forall k :: i + n <= k < p ==> !IsSpace(text[k]))
    && (forall k :: p <= k < q ==> IsTrailChar(text[k]))
    && ((e == q + 1 && IsSpace(text[q])) || (e == q == |text|))
  }

  /** The lazy `\S+?` takes the shortest URL group for which the rest of the pattern matches. */
  ghost predicate ShortestUrl(text: string, i: nat, p: nat) {
    forall p': nat, q': nat, e': nat :: p' < p ==> !BareUrlShape(text, i, p', q', e')
  }

  /**
   * The bare-URL match starting at i. After the scheme, the URL and its trail
   * cannot contain whitespace, so the match stops at the first whitespace `w` (or
   * the end of the text). The lazy `\S+?` gives the trail group the longest run
   * of `[),.;!?]` before `w`, but leaves at least one character to the URL.
   */
  function BareUrlAt(text: string, i: nat): (r: Option<BareUrl>)
    ensures r.Some? ==> i < r.value.urlEnd <= r.value.trailEnd <= r.value.end <= |text|
    ensures r.Some? ==> r.value.url == text[i..r.value.urlEnd] && r.value.trail == text[r.value.urlEnd..r.value.trailEnd]
    ensures r.Some? ==> r.value.sep == text[r.value.trailEnd..r.value.end]
  {
    var n := SchemeAt(text, i);
    if n == 0 then None
    else
      var w := FirstWhere(text, IsSpace, i + n);
      if w == i + n then None
      else
        var t := TrailStart(text, i + n, w);
        var p := if t > i + n + 1 then t else i + n + 1;
        var e := if w < |text| then w + 1 else w;
        Some(BareUrl(p, w, e, text[i..p], text[p..w], text[w..e]))
  }

  /** The three groups make up the whole match. */
  lemma BareUrlGroups(text: string, i: nat)
    requires BareUrlAt(text, i).Some?
    ensures
      var m := BareUrlAt(text, i).value;
      m.url + m.trail + m.sep == text[i..m.end]
  {
    var m := BareUrlAt(text, i).value;
    SliceSplit(text, i, m.urlEnd, m.trailEnd, m.end);
  }

  /** The stretch `BareUrlAt` picks out has the pattern's shape. */
  lemma BareUrlShapeOf(text: string, i: nat, t: nat, p: nat, w: nat, e: nat)
    requires SchemeAt(text, i) > 0 && i + SchemeAt(text, i) < p <= w <= |text| && t <= p
    requires forall k :: i + SchemeAt(text, i) <= k < w ==> !IsSpace(text[k])
    requires forall k :: t <= k < w ==> IsTrailChar(text[k])
    requires e == (if w < |text| then w + 1 else w) && (w < |text| ==> IsSpace(text[w]))
    ensures BareUrlShape(text, i, p, w, e)
  {
  }

  /** Where `BareUrlAt` puts the groups once the first whitespace after the scheme is known. */
  lemma BareUrlAtFrom(text: string, i: nat, w: nat)
    requires SchemeAt(text, i) > 0 && i + SchemeAt(text, i) < w <= |text|
    requires FirstWhere(text, IsSpace, i + SchemeAt(text, i)) == w
    ensures BareUrlAt(text, i).Some?
    ensures
      var n := SchemeAt(text, i);
      var t := TrailStart(text, i + n, w);
      var m := BareUrlAt(text, i).value;
      && m.urlEnd == (if t > i + n + 1 then t else i + n + 1)
      && m.trailEnd == w
      && m.end == (if w < |text| then w + 1 else w)
  {
  }

  /** Every match `BareUrlAt` reports has the pattern's shape. */
  lemma BareUrlAtSound(text: string, i: nat)
    requires BareUrlAt(text, i).Some?
    ensures
      var m := BareUrlAt(text, i).value;
      BareUrlShape(text, i, m.urlEnd, m.trailEnd, m.end)
  {
    var n := SchemeAt(text, i);
    var w := FirstWhere(text, IsSpace, i + n);
    var t := TrailStart(text, i + n, w);
    BareUrlAtFrom(text, i, w);
    var m := BareUrlAt(text, i).value;
    BareUrlShapeOf(text, i, t, m.urlEnd, w, m.end);
  }

  /** Any way the pattern can match at i has a URL group at least as long as `BareUrlAt`'s, and the same trail end. */
  lemma BareUrlAtFirst(text: string, i: nat, p: nat, q: nat, e: nat)
    requires BareUrlShape(text, i, p, q, e)
    ensures BareUrlAt(text, i).Some?
    ensures BareUrlAt(text, i).value.urlEnd <= p
    ensures BareUrlAt(text, i).value.trailEnd == q
  {
    var n := SchemeAt(text, i);
    forall k | i + n <= k < q ensures !IsSpace(text[k]) {
      if k >= p { assert IsTrailChar(text[k]); }
    }
    FirstWhereAt(text, IsSpace, i + n, q);
    var t := TrailStart(text, i + n, q);
    assert t > i + n ==> !IsTrailChar(text[t - 1]);
    BareUrlAtFrom(text, i, q);
  }

  /** The URL group `BareUrlAt` reports is the shortest with which the pattern matches: the laziness of `\S+?`. */
  lemma BareUrlAtShortest(text: string, i: nat)
    requires BareUrlAt(text, i).Some?
    ensures ShortestUrl(text, i, BareUrlAt(text, i).value.urlEnd)
  {
    var p := BareUrlAt(text, i).value.urlEnd;
    forall p': nat, q': nat, e': nat | BareUrlShape(text, i, p', q', e') ensures p <= p' {
      BareUrlAtFirst(text, i, p', q', e');
    }
  }

  /** Given the URL group, the rest of the match is determined. */
  lemma BareUrlShapeUnique(text: string, i: nat, p: nat, q: nat, e: nat, q': nat, e': nat)
    requires BareUrlShape(text, i, p, q, e) && BareUrlShape(text, i, p, q', e')
    ensures q == q' && e == e'
  {
    forall k | p <= k < q ensures !IsSpace(text[k]) { assert IsTrailChar(text[k]); }
    forall k | p <= k < q' ensures !IsSpace(text[k]) { assert IsTrailChar(text[k]); }
    FirstWhereAt(text, IsSpace, p, q);
    FirstWhereAt(text, IsSpace, p, q');
  }

  /** The regex's match at i — the shape with the shortest URL group — is exactly what `BareUrlAt` reports. */
  lemma BareUrlAtComplete(text: string, i: nat, p: nat, q: nat, e: nat)
    requires BareUrlShape(text, i, p, q, e) && ShortestUrl(text, i, p)
    ensures BareUrlAt(text, i) == Some(BareUrl(p, q, e, text[i..p], text[p..q], text[q..e]))
  {
    BareUrlAtFirst(text, i, p, q, e);
    BareUrlAtSound(text, i);
    var m := BareUrlAt(text, i).value;
    assert m.urlEnd == p;
    BareUrlShapeUnique(text, i, p, q, e, q, m.end);
  }

  function BareEnd(m: BareUrl): nat { m.end }

  /** The URL is kept when whitelisted and replaced by the removal notice otherwise; trail and separator stay. */
  function BareReplacement(wl: Whitelist, m: BareUrl): string
  {
    (if IsOk(wl, m.url) then m.url else Removed) + m.trail + m.sep
  }

  lemma BareUrlAdvances(text: string)
    ensures GlobalReplace.Advances(text, BareUrlAt, BareEnd)
  {
  }

  /** Pass 2 from position i on. */
  function BareUrlPass(text: string, i: nat, wl: Whitelist): string
    requires i <= |text|
  {
    BareUrlAdvances(text);
    GlobalReplace.ReplaceFrom(text, i, BareUrlAt, BareEnd, BareReplacement, wl)
  }

  function StripBareUrls(text: string, wl: Whitelist): string
  {
    BareUrlPass(text, 0, wl)
  }

  /** Pass 2 changes nothing where no bare URL matches, or when every URL is whitelisted. */
  lemma StripBareUrlsIdentity(text: string, wl: Whitelist)
    ensures (forall j :: 0 <= j < |text| ==> BareUrlAt(text, j).None?) ==> StripBareUrls(text, wl) == text
    ensures (forall url :: IsOk(wl, url)) ==> StripBareUrls(text, wl) == text
  {
    BareUrlAdvances(text);
    if forall j :: 0 <= j < |text| ==> BareUrlAt(text, j).None? {
      GlobalReplace.ReplaceNoMatch(text, BareUrlAt, BareEnd, BareReplacement, wl);
    }
    if forall url :: IsOk(wl, url) {
      forall j | 0 <= j < |text| && BareUrlAt(text, j).Some?
        ensures BareReplacement(wl, BareUrlAt(text, j).value) == text[j..BareUrlAt(text, j).value.end]
      {
        BareUrlGroups(text, j);
      }
      GlobalReplace.ReplaceVerbatim(text, 0, BareUrlAt, BareEnd, BareReplacement, wl);
    }
  }

  // ---------------------------------------------------------------------------
  // sanitizeLinks

  /** `sanitizeLinks`: "" for a missing, non-string or empty text; otherwise pass 1 and then pass 2. */
  function SanitizeLinks(text: Option<string>, wl: Whitelist): (r: string)
    ensures !Truthy(text) ==> r == ""
  {
    if !Truthy(text) then "" else StripBareUrls(StripMarkdownLinks(text.value, wl), wl)
  }

  /** Text that mentions neither "http://" nor "https://" passes through unchanged. */
  lemma SanitizeWithoutScheme(text: string, wl: Whitelist)
    requires forall k :: !StartsAt(text, "http://", k) && !StartsAt(text, "https://", k)
    ensures SanitizeLinks(Some(text), wl) == text
  {
    if text != "" {
      forall j | 0 <= j < |text| ensures MdLinkAt(text, j).None? {
        NoMdLinkWithoutScheme(text, j);
      }
      StripMarkdownLinksIdentity(text, wl);
      assert forall j :: 0 <= j < |text| ==> BareUrlAt(text, j).None?;
      StripBareUrlsIdentity(text, wl);
    }
  }

  /** A markdown link needs a scheme in its URL. */
  lemma NoMdLinkWithoutScheme(text: string, j: nat)
    requires forall k :: !StartsAt(text, "http://", k) && !StartsAt(text, "https://", k)
    ensures MdLinkAt(text, j).None?
  {
    if MdLinkAt(text, j).Some? {
      var m := MdLinkAt(text, j).value;
      SchemeOfInfix(text, m.close + 2, m.end - 1);
      assert false;
    }
  }

  /** With a whitelist that accepts every URL, nothing changes. */
  lemma SanitizeAllWhitelisted(text: string, wl: Whitelist)
    requires forall url :: IsOk(wl, url)
    ensures SanitizeLinks(Some(text), wl) == text
  {
    StripMarkdownLinksIdentity(text, wl);
    StripBareUrlsIdentity(text, wl);

  }

  /**
   * Wherever the markdown-link pattern matches, pass 1 keeps the link when its URL
   * is whitelisted and otherwise writes its link text followed by the removal notice.
   */
  lemma MarkdownLinkRewrite(text: string, i: nat, s: string, linkText: string, url: string, wl: Whitelist)
    requires i + |s| <= |text| && text[i..i + |s|] == s && IsMdLink(s, linkText, url)
    ensures MarkdownPass(text, i, wl)
            == (if IsOk(wl, url) then s else linkText + " " + Removed) + MarkdownPass(text, i + |s|, wl)
  {
    MdLinkAtComplete(text, i, s, linkText, url);
    MdReplaceAt(text, i, MdLink(i + 1 + |linkText|, i + |s|, s, linkText, url), wl);
  }

  /** Pass 1 at a position where `MdLinkAt` reports the match m. */
  lemma MdReplaceAt(text: string, i: nat, m: MdLink, wl: Whitelist)
    requires MdLinkAt(text, i) == Some(m)
    ensures m.end <= |text|
    ensures MarkdownPass(text, i, wl)
            == (if IsOk(wl, m.url) then m.whole else m.linkText + " " + Removed) + MarkdownPass(text, m.end, wl)
  {
    MdLinkAdvances(text);
    GlobalReplace.ReplaceAtMatch(text, i, MdLinkAt, MdEnd, MdReplacement, wl);
  }

  /**
   * Wherever the bare-URL pattern matches, pass 2 keeps the URL when it is
   * whitelisted and otherwise writes the removal notice in its place; the trail
   * of `[),.;!?]` and the whitespace after it stay.
   */
  lemma BareUrlRewrite(text: string, i: nat, p: nat, q: nat, e: nat, wl: Whitelist)
    requires BareUrlShape(text, i, p, q, e) && ShortestUrl(text, i, p)
    ensures BareUrlPass(text, i, wl)
            == (if IsOk(wl, text[i..p]) then text[i..p] else Removed) + text[p..q] + text[q..e] + BareUrlPass(text, e, wl)
  {
    BareUrlAdvances(text);
    BareUrlAtComplete(text, i, p, q, e);
    GlobalReplace.ReplaceAtMatch(text, i, BareUrlAt, BareEnd, BareReplacement, wl);
  }

  /** Pass 2 at a position where `BareUrlAt` reports a match. */
  lemma BarePassAt(text: string, i: nat, wl: Whitelist)
    requires i < |text| && BareUrlAt(text, i).Some?
    ensures BareUrlAt(text, i).value.end <= |text|
    ensures BareUrlPass(text, i, wl)
            == BareReplacement(wl, BareUrlAt(text, i).value) + BareUrlPass(text, BareUrlAt(text, i).value.end, wl)
  {
    BareUrlAdvances(text);
    GlobalReplace.ReplaceAtMatch(text, i, BareUrlAt, BareEnd, BareReplacement, wl);
  }

  /** Pass 2 copies a stretch where no bare URL starts, and ends with nothing at the end of the text. */
  lemma BarePassSkip(text: string, i: nat, k: nat, wl: Whitelist)
    requires i <= k <= |text| && forall j :: i <= j < k ==> BareUrlAt(text, j).None?
    ensures BareUrlPass(text, i, wl) == text[i..k] + BareUrlPass(text, k, wl)
    ensures BareUrlPass(text, |text|, wl) == []
  {
    BareUrlAdvances(text);
    GlobalReplace.ReplaceSkip(text, i, k, BareUrlAt, BareEnd, BareReplacement, wl);
  }

  /**
   * With an empty whitelist, a bare URL followed by `),` and a space loses the URL
   * and keeps the punctuation and the space.
   */
  lemma SanitizeExample(text: string, wl: Whitelist)
    requires text == "bkz. https://x.co/a), tamam" && wl.patterns == []
    ensures SanitizeLinks(Some(text), wl) == "bkz. " + Removed + "), tamam"
  {
    ExampleNoMarkdown(text, wl);
    ExampleBareUrl(text, wl);
  }

  lemma ExampleNoMarkdown(text: string, wl: Whitelist)
    requires text == "bkz. https://x.co/a), tamam"
    ensures StripMarkdownLinks(text, wl) == text
  {
    forall j | 0 <= j < |text| ensures MdLinkAt(text, j).None? {
      assert text[j] != '[';
    }
    MdLinkAdvances(text);
    GlobalReplace.ReplaceNoMatch(text, MdLinkAt, MdEnd, MdReplacement, wl);
  }

  lemma ExampleBareUrl(text: string, wl: Whitelist)
    requires text == "bkz. https://x.co/a), tamam" && wl.patterns == []
    ensures StripBareUrls(text, wl) == "bkz. " + Removed + "), tamam"
  {
    ExampleUrl(text);
    ExampleSlices(text);
    var m := BareUrlAt(text, 5).value;
    assert !IsOk(wl, m.url);
    BarePassSkip(text, 0, 5, wl);
    BarePassAt(text, 5, wl);
    BarePassSkip(text, 22, 27, wl);
    SliceSplit(text, 19, 21, 22, 27);
    assert BareReplacement(wl, m) == Removed + text[19..21] + text[21..22];
  }

  lemma ExampleUrl(text: string)
    requires text == "bkz. https://x.co/a), tamam"
    ensures |text| == 27
    ensures forall k :: 0 <= k < 5 ==> BareUrlAt(text, k).None?
    ensures forall k :: 22 <= k < 27 ==> BareUrlAt(text, k).None?
    ensures BareUrlAt(text, 5) == Some(BareUrl(19, 21, 22, text[5..19], text[19..21], text[21..22]))
  {
    ExampleNoScheme(text);
    ExampleScheme(text);
    ExampleSpace(text);
    ExampleTrail(text);
    BareUrlAtFrom(text, 5, 21);
  }

  lemma ExampleNoScheme(text: string)
    requires text == "bkz. https://x.co/a), tamam"
    ensures forall k :: 0 <= k < 5 ==> SchemeAt(text, k) == 0
  {
    forall k | 0 <= k < 5 ensures SchemeAt(text, k) == 0 {
      assert text[k..k + 8][0] == text[k] != 'h';
      assert text[k..k + 7][0] == text[k];
    }
  }

  lemma ExampleScheme(text: string)
    requires text == "bkz. https://x.co/a), tamam"
    ensures SchemeAt(text, 5) == 8
  {
    assert StartsAt(text, "https://", 5) by {
      forall j | 0 <= j < 8 ensures text[5..13][j] == "https://"[j] {
      }
    }
  }

  lemma ExampleSpace(text: string)
    requires text == "bkz. https://x.co/a), tamam"
    ensures FirstWhere(text, IsSpace, 13) == 21
  {
    forall k | 13 <= k < 21 ensures !IsSpace(text[k]) {
    }
    FirstWhereAt(text, IsSpace, 13, 21);
  }

  lemma ExampleTrail(text: string)
    requires text == "bkz. https://x.co/a), tamam"
    ensures TrailStart(text, 13, 21) == 19
  {
    assert !IsTrailChar(text[18]) && IsTrailChar(text[19]) && IsTrailChar(text[20]);
  }

  lemma ExampleSlices(text: string)
    requires text == "bkz. https://x.co/a), tamam"
    ensures text[0..5] == "bkz. " && text[19..27] == "), tamam"
  {
    forall j | 0 <= j < 5 ensures text[0..5][j] == "bkz. "[j] {
    }
    forall j | 0 <= j < 8 ensures text[19..27][j] == "), tamam"[j] {
    }
  }
}

=== FILE: wrappers.dfy ===
/** Option and Result, the two wrappers the model uses for JavaScript's `null`/`undefined` and for thrown errors. */
module Wrappers {

  datatype Option<+T> = None | Some(value: T)

  datatype Result<+R, +E> = Success(value: R) | Failure(error: E)
}
